=== FILE: README.md ===
# CV Markdown composer in Dafny

This project models `generate_markdown` from the CV generator
(`generate_cv.rb`). The Ruby method takes the CV document loaded from YAML
and returns one Markdown text. That text is a title header, an unconditional
Contact block, and six optional sections in a fixed order: Languages,
Experience, Education, Certifications, Skills, Projects. The method builds a
list of lines and joins them with `"\n"`.

The Dafny model has these modules:

- `Wrappers`: `Option`, standing for Ruby's `nil` versus a present value.
- `CvData`: the input document. Every key the generator reads is an
  `Option`, so a missing key (`nil`) and an empty string stay distinct. The
  generator tests for nil in several places where it does not test for
  emptiness.
- `Strings`: three helpers.
  - `Strip` is Ruby's `String#strip`. It removes NUL, tab, line feed,
    vertical tab, form feed, carriage return and space.
  - `Join` is `Array#join("\n")`.
  - `Split` splits a text at its newlines. On lines that hold no newline
    it is the inverse of `Join`.
- `Markdown`: one function per block of the Ruby method, in emission order.
  `MarkdownLines` is the list of lines and `GenerateMarkdown` the joined text.
- `ContactReader`: a parser for the Contact bullets. It is the inverse that
  the Contact block's round trip is stated against.
- `Outline`: the heading structure of the composed lines, and of the
  generated text when no composed line holds a newline.
  - Lines that begin with `## ` are section headings, and lines that begin
    with `### ` are entry headings. Other Markdown heading forms are not
    recognised (see "Left out").
  - The sections present, and their order, are exactly those the input calls for.
  - Every job, certification and project gets exactly one entry heading, in
    input order.
- `Document`: facts about the whole document.
  - How the document opens.
  - Which `languages` mapping is used.
  - Splitting the joined text gives back the composed lines.
- `Cases`: small concrete documents and the lines they produce.

All line numbers below refer to `generate_cv.rb`.

## Model

| member | source | states |
|---|---|---|
| Markdown.HeaderLines | generate_cv.rb:16-24 | The header is `# <name>`, then `**<tagline>**` exactly when the tagline is non-empty, then a blank line, `---` and a blank line. It has 4 or 5 lines. |
| Document.DocumentOpening | generate_cv.rb:16-28 | Every document opens with the title line. A missing name prints `# Name`; a present one, even empty, prints as is. The bold tagline line follows only for a non-empty tagline. Then come a blank line, `---`, a blank line, `## Contact` and a blank line. |
| Markdown.ContactLines | generate_cv.rb:26-34 | The Contact block is always present. It is the heading, a blank line, one line per present contact key and a closing blank line. |
| ContactReader.ContactRoundTrip | generate_cv.rb:29-33 | Reading the contact bullets back gives exactly the sidebar's five contact keys, with nothing left over. A bullet exists exactly for each non-nil key, including an empty one. It carries the key's value verbatim, and the order is Email, Phone, Website, LinkedIn, GitHub. |
| ContactReader.ContactBlock | generate_cv.rb:27-34 | The Contact block is the heading, a blank line, bullets that read back as the sidebar's contact keys, and a blank line. |
| Document.LanguagesPrecedence | generate_cv.rb:37 | The languages come from the sidebar's `languages` mapping whenever that key is present, even with an empty `info`, and the root's mapping is then ignored. Otherwise they come from the root's mapping, and otherwise there are none. |
| Markdown.LanguagesSection | generate_cv.rb:38-47 | The Languages section is empty exactly when there are no entries. Otherwise it is the four-line opening, one `- <idiom> (<level>)` bullet per entry in input order, and a blank line. |
| Markdown.ExperienceBlock | generate_cv.rb:56-66 | A job is its `### ` heading of role and company separated by a vertical bar, then `*time*` exactly when the time is non-empty, then a blank line right after the heading or the time line. The stripped details follow when the raw details are non-empty, and a blank line closes the block. |
| Markdown.ExperienceSection | generate_cv.rb:50-68 | The Experience section is empty exactly when there are no jobs. Otherwise it is the opening followed by at least three lines per job, the first being the first job's heading. |
| Outline.ExperienceEntries | generate_cv.rb:56-67 | The Experience section has exactly one entry heading per job, its `ExperienceHeading` (role and company separated by a vertical bar), in input order. |
| Markdown.EducationBulletForm | generate_cv.rb:78-86 | An education bullet starts with `- **degree** - university`. ` (time)` is appended exactly when the time is non-empty. |
| Markdown.EducationSection | generate_cv.rb:71-89 | The Education section is empty exactly when there are no degrees. Otherwise it is the opening, one bullet per degree in input order, and a single blank line after the list. |
| Markdown.CertificationIssuer | generate_cv.rb:100-110 | There is an issuer line exactly when the organization is non-empty. It is `*org (` followed by `start-end)*`, with missing years printed as empty, and the plain `*org*` form is never produced. |
| Markdown.CertificationBlock | generate_cv.rb:98-114 | A certification is `### name`, the issuer line exactly when the organization is non-empty, and a blank line right after the heading or the issuer line. The stripped details follow when non-empty, and a blank line closes the block. |
| Markdown.CertificationsSection | generate_cv.rb:92-115 | The Certifications section is empty exactly when the list is empty or missing. Otherwise it is the opening and at least three lines per certification. |
| Outline.CertificationEntries | generate_cv.rb:98-114 | The Certifications section has exactly one entry heading `### name` per certification, in input order. |
| Markdown.SkillNames | generate_cv.rb:124-126 | There are at most as many skill lines as entries, and one per entry when every entry has a name. A single entry contributes its name when it has one and nothing otherwise. |
| Markdown.SkillNamesAppend | generate_cv.rb:124-126 | The skill lines of two consecutive lists are the lines of the first followed by those of the second. With the one-entry case, the names come in input order, one line per named entry. |
| Markdown.SkillNamesMembers | generate_cv.rb:124-126 | Every emitted skill line is the name of some entry, and every entry with a name contributes its name. |
| Markdown.SkillsSection | generate_cv.rb:118-128 | The Skills section is empty exactly when the tool set is empty or missing. Otherwise it is the opening, the skill names in input order and a blank line. |
| Markdown.ProjectHeading | generate_cv.rb:140-148 | A project heading is `### [title](link)` exactly when the link is neither empty nor `#`. Otherwise it is `### title`. |
| Markdown.ProjectBlock | generate_cv.rb:139-151 | A project is its heading, then the tagline verbatim as its own line only when it is non-empty, then a blank line. |
| Markdown.ProjectsSection | generate_cv.rb:131-152 | The Projects section is empty exactly when there are no assignments; an intro alone prints nothing. Otherwise it is the opening and the intro line when the key is present, even if empty. A blank line always follows, then the projects. |
| Outline.ProjectEntries | generate_cv.rb:137-151 | The Projects section has exactly one entry heading per assignment, its `ProjectHeading`, in input order. |
| Markdown.MarkdownLines | generate_cv.rb:12-152 | The document has at least seven lines and its first line is the title. |
| Outline.PresentSectionsSpec | generate_cv.rb:26-135 | The sections the input calls for always start with Contact and are strictly in the fixed order. A section is among them exactly when Contact, or when its list is present and non-empty. |
| Outline.SectionOutline | generate_cv.rb:26-135 | The lines of the document that begin with `## ` are exactly the headings of the called-for sections, in the fixed order. |
| Outline.GeneratedOutline | generate_cv.rb:26-154 | When no composed line holds a newline, the lines of the generated text, split at its newlines, that begin with `## ` are exactly the headings of the called-for sections, in the fixed order. |
| Outline.OnlyContactWhenNoSections | generate_cv.rb:16-34 | When every optional list is missing or empty, the document is exactly the header and the Contact block, and `## Contact` is its only section heading. |
| Strings.Strip | generate_cv.rb:65 | `strip` returns an infix of its input with no whitespace at either end. It has removed only whitespace, and it is empty exactly when the input is all whitespace. |
| Strings.StripPadded | generate_cv.rb:65 | Stripping whitespace padding from around a text that has no whitespace at its ends gives the text back. |
| Strings.StripIdempotent | generate_cv.rb:65 | Stripping twice is stripping once. |
| Strings.Join | generate_cv.rb:154 | The joined text has the lines' total length plus one separator between neighbours, and starts with the first line. |
| Strings.SplitJoin | generate_cv.rb:154 | Splitting the joined text at newlines gives back the lines when no line holds a newline. |
| Markdown.GenerateMarkdown | generate_cv.rb:154 | The generated text always begins with the title line and a newline. |
| Document.GeneratedLines | generate_cv.rb:154 | The generated text splits back into exactly the composed lines, and its length is their total length plus the separators. |
| Cases.EmptyDocument | generate_cv.rb:16-34 | An empty document composes to `# Name`, a blank line, `---`, a blank line, `## Contact`, and two blank lines. |
| Cases.EmptyButPresentKeys | generate_cv.rb:17-29 | An empty but present name prints `# `, and an empty but present e-mail still prints `- Email: `. |
| Cases.SidebarLanguagesWin | generate_cv.rb:37-47 | With English in the sidebar and French at the root, only the English line is printed. |
| Cases.EmptySidebarLanguagesHideRoot | generate_cv.rb:37-38 | An empty sidebar `languages` mapping hides the root's languages, so no section is printed. |
| Cases.CertificationIssuers | generate_cv.rb:100-110 | Organization Y with years 2020 and 2021 gives `*Y (2020-2021)*`. Without years it gives `*Y (-)*`, and without an organization there is no line. |
| Cases.ProjectLinks | generate_cv.rb:140-148 | A real link gives `### [App](https://x)`. A `#` link or no link gives `### App`. |
| Cases.EducationTimes | generate_cv.rb:80-86 | A time of 2020 gives `- **PhD** - MIT (2020)`. A missing or empty time gives `- **PhD** - MIT`. |
| Cases.BlankExperienceDetails | generate_cv.rb:63-66 | Details made only of whitespace still print a line, and that line is empty. |

In these places the code behaves differently from what a plain reading
of the data (an emptiness test, a fallback when a list is empty) would
suggest; the model follows the code:

- A contact bullet is printed whenever its key is present, even with an
  empty value. The code tests for nil, not for emptiness.
- Only a missing name becomes `Name`; an empty name prints `# `.
- The sidebar's `languages` mapping is used whenever the key is present,
  even when its `info` is empty. The root's languages are then not
  consulted.
- A certification with an organization but without years prints
  `*org (-)*`, not `*org*`. `start` and `end` default to the empty string,
  which Ruby treats as true. The `*org*` branch at line 109 can therefore
  never run for string inputs.
- The code defines no error of its own for a malformed section. See
  "Left out".

## Left out

- `load_yaml` (lines 8-10) reads and parses YAML. The model takes an already
  typed `Cv` value instead.
- `generate_pdf` (lines 157-207) finds pandoc, writes a temporary file, runs
  an external process and exits. All of it is process and file I/O.
- `main` (lines 209-231) handles command-line arguments and paths.
- Malformed shapes: the model takes only mappings and lists of the expected
  shape. The typed input makes other values unrepresentable. The Ruby code
  defines no error for them, and what happens depends on the value:
  - An `experiences` given as a YAML list raises a `TypeError` at line 51.
  - A plain string without `info` in it gives nil there, so the section is
    left out silently.
  - Other wrong shapes raise a `TypeError` or a `NoMethodError`. Where a
    string stands in for a mapping, they are instead read silently as
    missing keys. An example is an `experiences` entry that is a plain
    string: it prints `###  | ` and two blank lines.
  No `MalformedInputError` exists in the code, so none is modelled.
- Non-string leaf values: the model treats every leaf value as a string.
  - Ruby formats a non-string value by string interpolation where the code
    only interpolates it. Examples are certification years, names and
    contact values.
  - Where the code calls `empty?` or `strip` on the value, a non-string
    raises a `NoMethodError`. Examples are an integer education time
    (line 82), an integer experience time (line 63), non-string details
    (lines 65 and 112), the sidebar tagline (line 21), and a project link
    or tagline (lines 144 and 149).
- Idempotence of the composer (same input, same output) holds for every
  Dafny function by construction, so it is not stated as a lemma.
- Outline.SectionOutline: it assumes, through `VerbatimTextPlain`, that no
  text copied verbatim onto a line of its own begins with `## `. Such text
  is the stripped details, skill names, project taglines and the project
  intro. Without that assumption, free text could add section headings of
  its own.
- Outline.SectionOutline: it counts as a section heading only a line that
  begins with `## `. A Markdown reader also sees other level-2 headings:
  - a line followed by a `---` underline (setext), such as two
    consecutive skill names `Foo` and `---`;
  - a bare `##`;
  - `## ` indented by up to three spaces, such as an unstripped project
    tagline.
  Free text of those forms adds headings that the lemma does not count.
- Outline.GeneratedOutline: it assumes, through `VerbatimTextPlain`, that
  no verbatim free text begins with `## `. It also assumes, through
  `SingleLines`, that no composed line holds a newline. It has the same
  limit on heading forms as `Outline.SectionOutline`.
- Outline.ExperienceEntries: it assumes the same about `### ` entry
  headings in the stripped details of the jobs.
- Outline.CertificationEntries: it assumes the same about `### ` entry
  headings in the stripped details of the certifications.
- Outline.ProjectEntries: it assumes the same about `### ` entry headings
  in the project taglines and the intro.
- Outline.SectionOutline, Outline.GeneratedOutline and the `Outline` entry
  lemmas: they describe the composed lines. Free text holding a newline,
  such as multi-line details, becomes several lines of the generated text,
  and a later line of it could read as a heading; the model does not
  follow headings inside such text.
- Document.GeneratedLines: it requires that no composed line holds a
  newline. Free text with embedded newlines, such as multi-line details,
  splits into more lines than were composed.
- Markdown.ExperienceSection: it states a lower bound on the line count
  and the first job heading, not the exact lines. `ExperienceBlock` states
  each job's lines, and `Outline.ExperienceEntries` states the entry headings.
- Markdown.CertificationsSection: it states a lower bound on the line count,
  not the exact lines. `CertificationBlock` states each certification's
  lines, and `Outline.CertificationEntries` states the entry headings.
- Markdown.ProjectsSection: it states the project lines only by a lower
  bound. `ProjectBlock` states each project's lines, and
  `Outline.ProjectEntries` states the entry headings.

=== FILE: cases.dfy ===
/** Concrete inputs and the lines the composer produces for them. They pin
    down the formatting rules on small documents, including the cases where
    the generator's nil checks differ from a plain emptiness test. */
module Cases {
  import opened Wrappers
  import opened Strings
  import opened CvData
  import opened Markdown

  const NoSections := Cv(None, None, None, None, None, None, None)

  /** With nothing but an empty root mapping, the document is the default
      title, the rule and an empty Contact block. */
  lemma EmptyDocument()
    ensures MarkdownLines(NoSections) == ["# Name", "", "---", "", "## Contact", "", ""]
  {
    EmptyHeader();
    EmptyContact();
    assert OptionalSections(NoSections) == [];
    assert MarkdownLines(NoSections) == HeaderLines(EmptySidebar) + ContactLines(EmptySidebar) + [];
  }

  lemma EmptyHeader()
    ensures HeaderLines(EmptySidebar) == ["# Name", "", "---", ""]
  {
    var h := HeaderLines(EmptySidebar);
    assert |h| == 4 && h[0] == "# Name" && h[1..] == ["", Divider, ""];
  }

  lemma EmptyContact()
    ensures ContactLines(EmptySidebar) == ["## Contact", "", ""]
  {
    assert ContactBullets(EmptySidebar) == [];
    assert SectionHeading("Contact") == "## Contact";
  }

  /** A present but empty name prints an empty title; a present but empty
      e-mail still prints its bullet. */
  lemma EmptyButPresentKeys()
    ensures var sb := EmptySidebar.(name := Some(""), email := Some(""));
      HeaderLines(sb)[0] == "# " && ContactLines(sb)[2] == "- Email: "
  {
  }

  const English := Language(Some("English"), Some("Fluent"))
  const French := Language(Some("French"), Some("Basic"))

  /** English in the sidebar, French at the root. */
  const BothLanguages := NoSections.(
    sidebar := Some(EmptySidebar.(languages := Some(LanguageList(Some([English]))))),
    languages := Some(LanguageList(Some([French]))))

  /** An empty `languages` mapping in the sidebar, French at the root. */
  const EmptySidebarLanguages := NoSections.(
    sidebar := Some(EmptySidebar.(languages := Some(LanguageList(None)))),
    languages := Some(LanguageList(Some([French]))))

  /** Sidebar languages win over root languages. */
  lemma SidebarLanguagesWin()
    ensures LanguagesSection(LanguageItems(BothLanguages)) == ["---", "", "## Languages", "", "- English (Fluent)", ""]
  {
    assert LanguageItems(BothLanguages) == [English];
    var r := LanguagesSection([English]);
    assert |r| == 6 && r[..4] == SectionOpening("Languages") && r[5] == "";
    assert r[4] == LanguageBullet(English) == "- English (Fluent)";
    assert SectionHeading("Languages") == "## Languages";
    assert SectionOpening("Languages") == ["---", "", "## Languages", ""];
    assert r == r[..4] + [r[4], r[5]];
  }

  /** An empty sidebar `languages` mapping still hides the root's. */
  lemma EmptySidebarLanguagesHideRoot()
    ensures LanguagesSection(LanguageItems(EmptySidebarLanguages)) == []
  {
  }

  /** The issuer line with both years, with no years, and with no organization. */
  lemma CertificationIssuers()
    ensures CertificationIssuer(Certification(Some("X"), Some("Y"), Some("2020"), Some("2021"), None)) == Some("*Y (2020-2021)*")
    ensures CertificationIssuer(Certification(Some("X"), Some("Y"), None, None, None)) == Some("*Y (-)*")
    ensures CertificationIssuer(Certification(Some("X"), None, None, None, None)) == None
  {
    assert "*" + "Y" + " (" + "2020" + "-" + "2021" + ")*" == "*Y (2020-2021)*";
    assert "*" + "Y" + " (" + "" + "-" + "" + ")*" == "*Y (-)*";
  }

  /** A real link becomes a Markdown link; the `#` placeholder is dropped. */
  lemma ProjectLinks()
    ensures ProjectHeading(Project(Some("App"), None, Some("https://x"))) == "### [App](https://x)"
    ensures ProjectHeading(Project(Some("App"), None, Some("#"))) == "### App"
    ensures ProjectHeading(Project(Some("App"), None, None)) == "### App"
  {
  }

  /** The time is appended in parentheses only when it is non-empty. */
  lemma EducationTimes()
    ensures EducationBullet(Education(Some("PhD"), Some("MIT"), Some("2020"))) == "- **PhD** - MIT (2020)"
    ensures EducationBullet(Education(Some("PhD"), Some("MIT"), None)) == "- **PhD** - MIT"
    ensures EducationBullet(Education(Some("PhD"), Some("MIT"), Some(""))) == "- **PhD** - MIT"
  {
    var stem := "- **PhD** - MIT";
    assert "- **" + "PhD" + "** - " + "MIT" == stem;
    assert stem + " (" + "2020" + ")" == "- **PhD** - MIT (2020)";
  }

  /** Details made only of whitespace still print a line, an empty one. */
  lemma BlankExperienceDetails()
    ensures ExperienceBlock(Experience(Some("Dev"), Some("Acme"), Some("2020"), Some("   ")))
      == ["### Dev | Acme", "*2020*", "", "", ""]
  {
    var blanks := "   ";
    assert IsSpace(blanks[0]) && IsSpace(blanks[1]) && IsSpace(blanks[2]);
    assert Strip(blanks) == [];
    var e := Experience(Some("Dev"), Some("Acme"), Some("2020"), Some(blanks));
    assert ExperienceHeading(e) == "### Dev | Acme";
    var r := ExperienceBlock(e);
    assert |r| == 5 && r[1] == "*2020*" && r[2] == "" && r[3] == "" && r[4] == "";
  }
}

=== FILE: contact_reader.dfy ===
/** A reader for the Contact block. It parses the bullets the generator
    emits back into the five optional contact fields. The round trip shows
    that the block keeps which keys were present, their values (empty ones
    included) and the fixed field order. */
module ContactReader {
  import opened Wrappers
  import opened Strings
  import opened CvData
  import opened Markdown

  /** The five contact keys of the sidebar. */
  datatype ContactInfo = ContactInfo(
    email: Option<string>,
    phone: Option<string>,
    website: Option<string>,
    linkedin: Option<string>,
    github: Option<string>)

  function ContactOf(sb: Sidebar): ContactInfo {
    ContactInfo(sb.email, sb.phone, sb.website, sb.linkedin, sb.github)
  }

  /** The text in front of a contact bullet's value. */
  function BulletPrefix(field: string): string {
    "- " + field + ": "
  }

  /** Reads the bullet for `field` from the front of `lines` when there is
      one; returns the value found and the lines left over. */
  function ReadBullet(field: string, lines: seq<string>): (r: (Option<string>, seq<string>))
    ensures r.0.Some? <==> |lines| > 0 && StartsWith(lines[0], BulletPrefix(field))
    ensures r.0.Some? ==> lines[0] == BulletPrefix(field) + r.0.value && r.1 == lines[1..]
    ensures r.0.None? ==> r.1 == lines
  {
    var prefix := BulletPrefix(field);
    if |lines| > 0 && StartsWith(lines[0], prefix) then
      var v := lines[0][|prefix|..];
      assert lines[0] == lines[0][..|prefix|] + v;
      (Some(v), lines[1..])
    else (None, lines)
  }

  /** Reads the five contact bullets in their fixed order. */
  function ReadContact(lines: seq<string>): (ContactInfo, seq<string>) {
    var (email, r1) := ReadBullet("Email", lines);
    var (phone, r2) := ReadBullet("Phone", r1);
    var (website, r3) := ReadBullet("Website", r2);
    var (linkedin, r4) := ReadBullet("LinkedIn", r3);
    var (github, r5) := ReadBullet("GitHub", r4);
    (ContactInfo(email, phone, website, linkedin, github), r5)
  }

  /** True when no line of `lines` has the character `c` at position 2,
      where a contact bullet carries the first letter of its field name. */
  predicate NoInitial(lines: seq<string>, c: char) {
    forall l :: l in lines ==> |l| > 2 && l[2] != c
  }

  lemma BulletInitial(field: string, v: string)
    requires |field| > 0
    ensures forall l :: l in ContactBullet(field, Some(v)) ==> |l| > 2 && l[2] == field[0]
  {
    var l := "- " + field + ": " + v;
    assert l[2] == field[0];
  }

  /** Reading the bullet of `field` off a bullet built for `field` gives
      back the key's value, provided the following line is not a bullet for
      the same field. */
  lemma ReadBulletOf(field: string, o: Option<string>, rest: seq<string>)
    requires |field| > 0
    requires NoInitial(rest, field[0])
    ensures ReadBullet(field, ContactBullet(field, o) + rest) == (o, rest)
  {
    var prefix := BulletPrefix(field);
    if o.Some? {
      var line := prefix + o.value;
      assert ContactBullet(field, o) == [line];
      assert line[..|prefix|] == prefix;
      assert line[|prefix|..] == o.value;
      assert ([line] + rest)[1..] == rest;
    } else {
      assert ContactBullet(field, o) + rest == rest;
      if |rest| > 0 {
        assert rest[0] in rest;
        assert prefix[2] == field[0];
        DifferAt(rest[0], prefix, 2);
      }
    }
  }

  lemma DifferAt(s: string, p: string, k: nat)
    requires k < |s| && k < |p| && s[k] != p[k]
    ensures !StartsWith(s, p)
  {
    if |p| <= |s| {
      assert s[..|p|][k] != p[k];
    }
  }

  lemma NoInitialAppend(a: seq<string>, b: seq<string>, c: char)
    requires NoInitial(a, c) && NoInitial(b, c)
    ensures NoInitial(a + b, c)
  {
  }

  lemma NoInitialBullet(field: string, o: Option<string>, c: char)
    requires |field| > 0 && field[0] != c
    ensures NoInitial(ContactBullet(field, o), c)
  {
    if o.Some? {
      BulletInitial(field, o.value);
    }
  }

  /** The Contact bullets read back as exactly the sidebar's contact keys,
      with nothing left over: a bullet exists exactly for each present key,
      it carries that key's value verbatim, and the order is fixed. */
  lemma {:induction false} ContactRoundTrip(sb: Sidebar)
    ensures ReadContact(ContactBullets(sb)) == (ContactOf(sb), [])
  {
    var be := ContactBullet("Email", sb.email);
    var bp := ContactBullet("Phone", sb.phone);
    var bw := ContactBullet("Website", sb.website);
    var bl := ContactBullet("LinkedIn", sb.linkedin);
    var bg := ContactBullet("GitHub", sb.github);
    var r4 := bg;
    var r3 := bl + r4;
    var r2 := bw + r3;
    var r1 := bp + r2;
    assert ContactBullets(sb) == be + r1;

    assert NoInitial([], 'G');
    ReadBulletOf("GitHub", sb.github, []);
    assert bg + [] == bg;

    NoInitialBullet("GitHub", sb.github, 'L');
    ReadBulletOf("LinkedIn", sb.linkedin, r4);

    NoInitialBullet("GitHub", sb.github, 'W');
    NoInitialBullet("LinkedIn", sb.linkedin, 'W');
    NoInitialAppend(bl, r4, 'W');
    ReadBulletOf("Website", sb.website, r3);

    NoInitialBullet("GitHub", sb.github, 'P');
    NoInitialBullet("LinkedIn", sb.linkedin, 'P');
    NoInitialBullet("Website", sb.website, 'P');
    NoInitialAppend(bl, r4, 'P');
    NoInitialAppend(bw, r3, 'P');
    ReadBulletOf("Phone", sb.phone, r2);

    NoInitialBullet("GitHub", sb.github, 'E');
    NoInitialBullet("LinkedIn", sb.linkedin, 'E');
    NoInitialBullet("Website", sb.website, 'E');
    NoInitialBullet("Phone", sb.phone, 'E');
    NoInitialAppend(bl, r4, 'E');
    NoInitialAppend(bw, r3, 'E');
    NoInitialAppend(bp, r2, 'E');
    ReadBulletOf("Email", sb.email, r1);
  }

  /** The Contact block is its heading, a blank line, the bullets (which
      read back as the sidebar's contact keys) and a closing blank line. */
  lemma ContactBlock(sb: Sidebar)
    ensures var r := ContactLines(sb);
      && r[..2] == [SectionHeading("Contact"), ""]
      && r[|r| - 1] == ""
      && ReadContact(r[2..|r| - 1]) == (ContactOf(sb), [])
  {
    var r := ContactLines(sb);
    assert r[2..|r| - 1] == ContactBullets(sb);
    ContactRoundTrip(sb);
  }
}

=== FILE: cv_data.dfy ===
/** The CV document as the generator reads it after YAML loading. Every key
    the generator looks up is an `Option`: `None` is a missing key (Ruby
    `nil`), `Some("")` an empty value. Every list is an `Option<seq<..>>`
    because the generator tests the list for nil before it tests it for
    emptiness. All leaf values are strings. */
module CvData {
  import opened Wrappers

  /** One spoken language: `idiom` and `level`. */
  datatype Language = Language(idiom: Option<string>, level: Option<string>)

  /** A `languages` mapping; the entries live under its `info` key. */
  datatype LanguageList = LanguageList(info: Option<seq<Language>>)

  /** The `sidebar` mapping: header, contact fields and optionally the languages. */
  datatype Sidebar = Sidebar(
    name: Option<string>,
    tagline: Option<string>,
    email: Option<string>,
    phone: Option<string>,
    website: Option<string>,
    linkedin: Option<string>,
    github: Option<string>,
    languages: Option<LanguageList>)

  /** One job: role, company, time span and free-text details. */
  datatype Experience = Experience(
    role: Option<string>,
    company: Option<string>,
    time: Option<string>,
    details: Option<string>)

  /** The `experiences` mapping; the jobs live under `info`. */
  datatype ExperienceList = ExperienceList(info: Option<seq<Experience>>)

  /** One degree: degree, university and time span. */
  datatype Education = Education(
    degree: Option<string>,
    university: Option<string>,
    time: Option<string>)

  /** The `education` mapping; the degrees live under `info`. */
  datatype EducationList = EducationList(info: Option<seq<Education>>)

  /** One certification; `startYear` and `endYear` are the `start` and `end` keys. */
  datatype Certification = Certification(
    name: Option<string>,
    organization: Option<string>,
    startYear: Option<string>,
    endYear: Option<string>,
    details: Option<string>)

  /** The `certifications` mapping; the certifications live under `list`. */
  datatype CertificationList = CertificationList(list: Option<seq<Certification>>)

  /** One tool of the tool set. */
  datatype Skill = Skill(name: Option<string>)

  /** The `skills` mapping; the tools live under `toolset`. */
  datatype SkillSet = SkillSet(toolset: Option<seq<Skill>>)

  /** One project: title, one-line tagline and link. */
  datatype Project = Project(
    title: Option<string>,
    tagline: Option<string>,
    link: Option<string>)

  /** The `projects` mapping: an introduction line and the `assignments`. */
  datatype ProjectList = ProjectList(intro: Option<string>, assignments: Option<seq<Project>>)

  /** The root mapping of the YAML document. */
  datatype Cv = Cv(
    sidebar: Option<Sidebar>,
    languages: Option<LanguageList>,
    experiences: Option<ExperienceList>,
    education: Option<EducationList>,
    certifications: Option<CertificationList>,
    skills: Option<SkillSet>,
    projects: Option<ProjectList>)

  /** The sidebar with every key missing, which is what `data['sidebar'] || {}`
      yields when there is no sidebar. */
  const EmptySidebar := Sidebar(None, None, None, None, None, None, None, None)

  /** A string-valued key read with an empty-string default (`x || ''`);
      it is also what Ruby's interpolation `"#{x}"` prints for nil. */
  function Text(o: Option<string>): string {
    o.GetOr("")
  }

  /** A list-valued key; a missing list behaves as an empty one. */
  function ListOf<T>(o: Option<seq<T>>): seq<T> {
    o.GetOr([])
  }

  function SidebarOf(cv: Cv): Sidebar {
    cv.sidebar.GetOr(EmptySidebar)
  }

  function ExperienceItems(cv: Cv): seq<Experience> {
    match cv.experiences
    case Some(l) => ListOf(l.info)
    case None => []
  }

  function EducationItems(cv: Cv): seq<Education> {
    match cv.education
    case Some(l) => ListOf(l.info)
    case None => []
  }

  function CertificationItems(cv: Cv): seq<Certification> {
    match cv.certifications
    case Some(l) => ListOf(l.list)
    case None => []
  }

  function SkillItems(cv: Cv): seq<Skill> {
    match cv.skills
    case Some(l) => ListOf(l.toolset)
    case None => []
  }

  function ProjectItems(cv: Cv): seq<Project> {
    match cv.projects
    case Some(l) => ListOf(l.assignments)
    case None => []
  }

  function ProjectIntro(cv: Cv): Option<string> {
    match cv.projects
    case Some(l) => l.intro
    case None => None
  }
}

=== FILE: document.dfy ===
/** Facts about the whole generated document that relate several parts of
    the composer: how it opens, where the languages come from, and that the
    joined text splits back into the composed lines. */
module Document {
  import opened Wrappers
  import opened Strings
  import opened CvData
  import opened Markdown

  /** The document opens with the title, the bold tagline only when the
      tagline is non-empty, a blank line, a rule, a blank line, and then the
      Contact heading and a blank line, whatever the rest of the input. A
      missing name prints `Name`; a present one, even empty, prints as is. */
  lemma DocumentOpening(cv: Cv)
    ensures var sb := SidebarOf(cv);
      var lines := MarkdownLines(cv);
      var k := if Text(sb.tagline) == "" then 1 else 2;
      && |lines| >= k + 5
      && lines[0] == "# " + DisplayName(sb)
      && (sb.name.None? ==> lines[0] == "# Name")
      && (sb.name.Some? ==> lines[0] == "# " + sb.name.value)
      && (k == 2 ==> lines[1] == "**" + sb.tagline.value + "**")
      && lines[k..k + 5] == ["", Divider, "", SectionHeading("Contact"), ""]
  {
    var sb := SidebarOf(cv);
    OpeningOf(HeaderLines(sb), ContactLines(sb), OptionalSections(cv));
  }

  /** A header ending in blank, rule, blank, followed by a block opening
      with the Contact heading and a blank line. */
  lemma OpeningOf(h: seq<string>, c: seq<string>, rest: seq<string>)
    requires |h| >= 3 && h[|h| - 3..] == ["", Divider, ""]
    requires |c| >= 2 && c[..2] == [SectionHeading("Contact"), ""]
    ensures var lines := h + c + rest;
      && lines[..|h|] == h
      && lines[|h| - 3..|h| + 2] == ["", Divider, "", SectionHeading("Contact"), ""]
  {
    var lines := h + c + rest;
    assert lines[|h| - 3..|h|] == h[|h| - 3..];
    assert lines[|h|..|h| + 2] == c[..2];
    assert lines[|h| - 3..|h| + 2] == lines[|h| - 3..|h|] + lines[|h|..|h| + 2];
  }

  /** Where the languages come from: the sidebar's `languages` mapping
      whenever that key is present (even with an empty `info`), in which
      case the root's mapping is ignored; otherwise the root's; otherwise
      none. */
  lemma LanguagesPrecedence(cv: Cv, root: Option<LanguageList>)
    ensures SidebarOf(cv).languages.Some? ==>
      LanguageItems(cv.(languages := root)) == LanguageItems(cv) == ListOf(SidebarOf(cv).languages.value.info)
    ensures SidebarOf(cv).languages.None? && cv.languages.Some? ==>
      LanguageItems(cv) == ListOf(cv.languages.value.info)
    ensures SidebarOf(cv).languages.None? && cv.languages.None? ==>
      LanguageItems(cv) == []
  {
    assert SidebarOf(cv.(languages := root)) == SidebarOf(cv);
  }

  /** `generate_markdown`'s text splits at its newlines back into the
      composed lines, provided no composed line holds a newline of its own:
      the join loses nothing and adds nothing. */
  lemma GeneratedLines(cv: Cv)
    requires SingleLines(MarkdownLines(cv))
    ensures Split(GenerateMarkdown(cv)) == MarkdownLines(cv)
    ensures |GenerateMarkdown(cv)| == TotalLength(MarkdownLines(cv)) + |MarkdownLines(cv)| - 1
  {
    SplitJoin(MarkdownLines(cv));
  }
}

=== FILE: markdown.dfy ===
/** The Markdown composer of the CV generator (`generate_markdown`): the CV
    document becomes a list of Markdown lines, section by section, and the
    lines are joined with newlines. Each section function below models one
    block of the Ruby method, in the order the method emits them. */
module Markdown {
  import opened Wrappers
  import opened Strings
  import opened CvData

  /** The horizontal rule that separates the header and the sections. */
  const Divider := "---"

  /** The level-2 heading line of a section. */
  function SectionHeading(title: string): string {
    "## " + title
  }

  /** The four lines that open every optional section: a rule, a blank
      line, the level-2 heading and another blank line. */
  function SectionOpening(title: string): seq<string> {
    [Divider, "", SectionHeading(title), ""]
  }

  /** A list section: the opening, one line per entry and a blank line. */
  function ListSection(title: string, lines: seq<string>): (r: seq<string>)
    ensures |r| == |lines| + 5
    ensures r[..4] == SectionOpening(title) && r[|r| - 1] == ""
    ensures forall i :: 0 <= i < |lines| ==> r[4 + i] == lines[i]
  {
    SectionOpening(title) + lines + [""]
  }

  // ----- Header -----

  /** The name printed in the title; only a missing key becomes `Name`. */
  function DisplayName(sb: Sidebar): string {
    sb.name.GetOr("Name")
  }

  /** Level-1 title, the bold tagline when there is one, then blank, rule, blank. */
  function HeaderLines(sb: Sidebar): (r: seq<string>)
    ensures |r| == if Text(sb.tagline) == "" then 4 else 5
    ensures r[0] == "# " + DisplayName(sb)
    ensures Text(sb.tagline) != "" <==> r[1] != ""
    ensures Text(sb.tagline) != "" ==> r[1] == "**" + sb.tagline.value + "**"
    ensures r[|r| - 3..] == ["", Divider, ""]
  {
    var tagline := Text(sb.tagline);
    ["# " + DisplayName(sb)]
    + (if tagline != "" then ["**" + tagline + "**"] else [])
    + ["", Divider, ""]
  }

  // ----- Contact -----

  /** One contact bullet, emitted whenever the key is present, even if empty. */
  function ContactBullet(field: string, value: Option<string>): seq<string> {
    match value
    case Some(v) => ["- " + field + ": " + v]
    case None => []
  }

  /** The contact bullets in their fixed order. */
  function ContactBullets(sb: Sidebar): seq<string> {
    ContactBullet("Email", sb.email)
    + ContactBullet("Phone", sb.phone)
    + ContactBullet("Website", sb.website)
    + ContactBullet("LinkedIn", sb.linkedin)
    + ContactBullet("GitHub", sb.github)
  }

  /** How many of the five contact keys are present. */
  function PresentContactFields(sb: Sidebar): nat {
    (if sb.email.Some? then 1 else 0)
    + (if sb.phone.Some? then 1 else 0)
    + (if sb.website.Some? then 1 else 0)
    + (if sb.linkedin.Some? then 1 else 0)
    + (if sb.github.Some? then 1 else 0)
  }

  /** The Contact block: always present, with one bullet per present key. */
  function ContactLines(sb: Sidebar): (r: seq<string>)
    ensures |r| == 3 + PresentContactFields(sb)
    ensures r[..2] == [SectionHeading("Contact"), ""]
    ensures r[|r| - 1] == ""
  {
    [SectionHeading("Contact"), ""] + ContactBullets(sb) + [""]
  }

  // ----- Languages -----

  /** The `languages` mapping in use: the sidebar's whenever its key is
      present, otherwise the root's, otherwise an empty mapping. */
  function LanguageSource(cv: Cv): LanguageList {
    match SidebarOf(cv).languages
    case Some(l) => l
    case None => cv.languages.GetOr(LanguageList(None))
  }

  function LanguageItems(cv: Cv): seq<Language> {
    ListOf(LanguageSource(cv).info)
  }

  function LanguageBullet(l: Language): string {
    "- " + Text(l.idiom) + " (" + Text(l.level) + ")"
  }

  /** The Languages section: one bullet per entry, or nothing at all. */
  function LanguagesSection(items: seq<Language>): (r: seq<string>)
    ensures |items| == 0 <==> r == []
    ensures |items| > 0 ==> |r| == |items| + 5 && r[..4] == SectionOpening("Languages")
    ensures |items| > 0 ==> r[|r| - 1] == ""
    ensures |items| > 0 ==> forall i :: 0 <= i < |items| ==> r[4 + i] == LanguageBullet(items[i])
  {
    if |items| == 0 then []
    else ListSection("Languages", seq(|items|, i requires 0 <= i < |items| => LanguageBullet(items[i])))
  }

  // ----- Experience -----

  function ExperienceHeading(e: Experience): string {
    "### " + Text(e.role) + " | " + Text(e.company)
  }

  /** The lines of one job: heading, italic time if any, blank, stripped
      details if the raw details are non-empty, blank. */
  function ExperienceBlock(e: Experience): (r: seq<string>)
    ensures |r| == 3 + (if Text(e.time) != "" then 1 else 0) + (if Text(e.details) != "" then 1 else 0)
    ensures r[0] == ExperienceHeading(e)
    ensures Text(e.time) != "" <==> r[1] != ""
    ensures Text(e.time) != "" ==> r[1] == "*" + Text(e.time) + "*"
    ensures r[if Text(e.time) != "" then 2 else 1] == ""
    ensures Text(e.details) != "" ==> r[|r| - 2] == Strip(Text(e.details))
    ensures r[|r| - 1] == ""
  {
    var time := Text(e.time);
    var details := Text(e.details);
    [ExperienceHeading(e)]
    + (if time != "" then ["*" + time + "*"] else [])
    + [""]
    + (if details != "" then [Strip(details)] else [])
    + [""]
  }

  /** The blocks of all jobs, in input order. */
  function ExperienceBody(es: seq<Experience>): (r: seq<string>)
    ensures |r| >= 3 * |es|
    ensures |es| > 0 ==> r[0] == ExperienceHeading(es[0])
  {
    if |es| == 0 then [] else ExperienceBlock(es[0]) + ExperienceBody(es[1..])
  }

  function ExperienceSection(es: seq<Experience>): (r: seq<string>)
    ensures |es| == 0 <==> r == []
    ensures |es| > 0 ==> |r| >= 4 + 3 * |es|
    ensures |es| > 0 ==> r[..4] == SectionOpening("Experience") && r[4] == ExperienceHeading(es[0])
  {
    if |es| == 0 then [] else SectionOpening("Experience") + ExperienceBody(es)
  }

  // ----- Education -----

  /** The part of an education bullet that does not depend on the time. */
  function EducationStem(e: Education): string {
    "- **" + Text(e.degree) + "** - " + Text(e.university)
  }

  /** One education bullet; ` (time)` is appended only for a non-empty time. */
  function EducationBullet(e: Education): string {
    var time := Text(e.time);
    if time != "" then EducationStem(e) + " (" + time + ")" else EducationStem(e)
  }

  /** An education bullet is the stem, followed by ` (time)` exactly when
      the time is non-empty. */
  lemma EducationBulletForm(e: Education)
    ensures var r := EducationBullet(e);
      && StartsWith(r, EducationStem(e))
      && |r| == |EducationStem(e)| + (if Text(e.time) == "" then 0 else |Text(e.time)| + 3)
      && (Text(e.time) != "" ==> r[|EducationStem(e)|..] == " (" + Text(e.time) + ")")
  {
    var stem := EducationStem(e);
    var r := EducationBullet(e);
    assert r[..|stem|] == stem;
    if Text(e.time) != "" {
      assert r[|stem|..] == " (" + Text(e.time) + ")";
    }
  }

  /** The Education section: one bullet per degree and one blank line after the list. */
  function EducationSection(es: seq<Education>): (r: seq<string>)
    ensures |es| == 0 <==> r == []
    ensures |es| > 0 ==> |r| == |es| + 5 && r[..4] == SectionOpening("Education")
    ensures |es| > 0 ==> r[|r| - 1] == ""
    ensures |es| > 0 ==> forall i :: 0 <= i < |es| ==> r[4 + i] == EducationBullet(es[i])
  {
    if |es| == 0 then []
    else ListSection("Education", seq(|es|, i requires 0 <= i < |es| => EducationBullet(es[i])))
  }

  // ----- Certifications -----

  /** The entry heading of a certification: `### name`. */
  function CertificationHeading(c: Certification): string {
    "### " + Text(c.name)
  }

  /** The italic issuer line. `start` and `end` default to the empty string,
      which Ruby treats as true, so the year range is printed whenever the
      organization is non-empty and the plain `*org*` form never occurs. */
  function CertificationIssuer(c: Certification): (r: Option<string>)
    ensures r.Some? <==> Text(c.organization) != ""
    ensures r.Some? ==> StartsWith(r.value, "*" + Text(c.organization) + " (")
    ensures r.Some? ==> |r.value| == |Text(c.organization)| + |Text(c.startYear)| + |Text(c.endYear)| + 6
    ensures r.Some? ==> r.value[|Text(c.organization)| + 3..] == Text(c.startYear) + "-" + Text(c.endYear) + ")*"
    ensures r != Some("*" + Text(c.organization) + "*")
  {
    var org := Text(c.organization);
    if org != "" then
      var line := "*" + org + " (" + Text(c.startYear) + "-" + Text(c.endYear) + ")*";
      assert line[..|org| + 3] == "*" + org + " (";
      assert line[|org| + 3..] == Text(c.startYear) + "-" + Text(c.endYear) + ")*";
      Some(line)
    else None
  }

  /** The lines of one certification: heading, issuer line if any, blank,
      stripped details if the raw details are non-empty, blank. */
  function CertificationBlock(c: Certification): (r: seq<string>)
    ensures |r| == 3 + (if Text(c.organization) != "" then 1 else 0) + (if Text(c.details) != "" then 1 else 0)
    ensures r[0] == CertificationHeading(c)
    ensures Text(c.organization) != "" <==> r[1] != ""
    ensures Text(c.organization) != "" ==> r[1] == CertificationIssuer(c).value
    ensures r[if Text(c.organization) != "" then 2 else 1] == ""
    ensures Text(c.details) != "" ==> r[|r| - 2] == Strip(Text(c.details))
    ensures r[|r| - 1] == ""
  {
    var details := Text(c.details);
    [CertificationHeading(c)]
    + (match CertificationIssuer(c) case Some(line) => [line] case None => [])
    + [""]
    + (if details != "" then [Strip(details)] else [])
    + [""]
  }

  function CertificationBody(cs: seq<Certification>): (r: seq<string>)
    ensures |r| >= 3 * |cs|
    ensures |cs| > 0 ==> r[0] == CertificationHeading(cs[0])
  {
    if |cs| == 0 then [] else CertificationBlock(cs[0]) + CertificationBody(cs[1..])
  }

  function CertificationsSection(cs: seq<Certification>): (r: seq<string>)
    ensures |cs| == 0 <==> r == []
    ensures |cs| > 0 ==> |r| >= 4 + 3 * |cs|
    ensures |cs| > 0 ==> r[..4] == SectionOpening("Certifications")
  {
    if |cs| == 0 then [] else SectionOpening("Certifications") + CertificationBody(cs)
  }

  // ----- Skills -----

  /** The line a single skill contributes: its name when it has one. */
  function NameLine(s: Skill): seq<string> {
    match s.name
    case Some(n) => [n]
    case None => []
  }

  /** The names of the skills that have a `name` key, in input order. */
  function SkillNames(t: seq<Skill>): (r: seq<string>)
    ensures |r| <= |t|
    ensures (forall i :: 0 <= i < |t| ==> t[i].name.Some?) ==> |r| == |t|
    ensures |t| == 1 ==> r == NameLine(t[0])
  {
    if |t| == 0 then []
    else
      assert forall i :: 1 <= i < |t| ==> t[i] == t[1..][i - 1];
      NameLine(t[0]) + SkillNames(t[1..])
  }

  /** Every skill line is the name of some entry, and the name of every
      entry that has one is among the skill lines. */
  lemma {:induction false} SkillNamesMembers(t: seq<Skill>)
    ensures var r := SkillNames(t);
      && (forall j :: 0 <= j < |r| ==> exists i :: 0 <= i < |t| && t[i].name == Some(r[j]))
      && (forall i :: 0 <= i < |t| && t[i].name.Some? ==> t[i].name.value in r)
  {
    if |t| > 0 {
      var head := NameLine(t[0]);
      var rest := SkillNames(t[1..]);
      var r := SkillNames(t);
      assert r == head + rest;
      SkillNamesMembers(t[1..]);
      forall j | 0 <= j < |r|
        ensures exists i :: 0 <= i < |t| && t[i].name == Some(r[j])
      {
        if j < |head| {
          assert t[0].name == Some(r[j]);
        } else {
          assert r[j] == rest[j - |head|];
          var k :| 0 <= k < |t[1..]| && t[1..][k].name == Some(rest[j - |head|]);
          assert t[k + 1].name == Some(r[j]);
        }
      }
      forall i | 0 <= i < |t| && t[i].name.Some?
        ensures t[i].name.value in r
      {
        if i > 0 {
          assert t[i] == t[1..][i - 1];
          assert t[i].name.value in rest;
        }
      }
    }
  }

  lemma SkillNamesStep(t: seq<Skill>)
    requires |t| > 0
    ensures SkillNames(t) == NameLine(t[0]) + SkillNames(t[1..])
  {
  }

  /** The skill lines of consecutive lists are consecutive: together with
      the one-entry case, the names keep the input order and every named
      entry contributes exactly one line. */
  lemma {:induction false} SkillNamesAppend(a: seq<Skill>, b: seq<Skill>)
    ensures SkillNames(a + b) == SkillNames(a) + SkillNames(b)
  {
    if |a| == 0 {
      assert a + b == b;
    } else {
      var ab := a + b;
      var head := NameLine(a[0]);
      assert ab[0] == a[0];
      assert ab[1..] == a[1..] + b;
      SkillNamesStep(ab);
      SkillNamesStep(a);
      SkillNamesAppend(a[1..], b);
      assert head + (SkillNames(a[1..]) + SkillNames(b)) == (head + SkillNames(a[1..])) + SkillNames(b);
    }
  }

  function SkillsSection(t: seq<Skill>): (r: seq<string>)
    ensures |t| == 0 <==> r == []
    ensures |t| > 0 ==> |r| == 5 + |SkillNames(t)|
    ensures |t| > 0 ==> r[..4] == SectionOpening("Skills") && r[|r| - 1] == ""
    ensures |t| > 0 ==> r[4..|r| - 1] == SkillNames(t)
  {
    if |t| == 0 then []
    else
      var r := ListSection("Skills", SkillNames(t));
      assert r[4..|r| - 1] == SkillNames(t);
      r
  }

  // ----- Projects -----

  /** A link is shown unless it is empty or the `#` placeholder. */
  predicate HasLink(p: Project) {
    Text(p.link) != "#" && Text(p.link) != ""
  }

  /** The project heading: a Markdown link when the project has a real link,
      the bare title otherwise. */
  function ProjectHeading(p: Project): (r: string)
    ensures StartsWith(r, "### ")
    ensures HasLink(p) <==> r != "### " + Text(p.title)
    ensures HasLink(p) ==> r == "### [" + Text(p.title) + "](" + Text(p.link) + ")"
  {
    var title := Text(p.title);
    var r := if HasLink(p) then "### [" + title + "](" + Text(p.link) + ")" else "### " + title;
    assert r[..4] == "### ";
    assert HasLink(p) ==> |r| != |"### " + title|;
    r
  }

  /** The lines of one project: heading, tagline if non-empty, blank. */
  function ProjectBlock(p: Project): (r: seq<string>)
    ensures |r| == 2 + (if Text(p.tagline) != "" then 1 else 0)
    ensures r[0] == ProjectHeading(p) && r[|r| - 1] == ""
    ensures Text(p.tagline) != "" ==> r[1] == Text(p.tagline)
  {
    var tagline := Text(p.tagline);
    [ProjectHeading(p)] + (if tagline != "" then [tagline] else []) + [""]
  }

  function ProjectBody(ps: seq<Project>): (r: seq<string>)
    ensures |r| >= 2 * |ps|
    ensures |ps| > 0 ==> r[0] == ProjectHeading(ps[0])
  {
    if |ps| == 0 then [] else ProjectBlock(ps[0]) + ProjectBody(ps[1..])
  }

  /** The intro line when the key is present, even if empty, then a blank line. */
  function ProjectIntroLines(intro: Option<string>): seq<string> {
    (match intro case Some(i) => [i] case None => []) + [""]
  }

  /** The Projects section: the intro line if the key is present, a blank
      line, then the projects. It exists only when there are projects, so
      an intro on its own is never printed. */
  function ProjectsSection(intro: Option<string>, ps: seq<Project>): (r: seq<string>)
    ensures |ps| == 0 <==> r == []
    ensures |ps| > 0 ==> |r| >= 5 + 2 * |ps|
    ensures |ps| > 0 ==> r[..4] == SectionOpening("Projects")
    ensures |ps| > 0 && intro.Some? ==> r[4] == intro.value && r[5] == ""
    ensures |ps| > 0 && intro.None? ==> r[4] == ""
  {
    if |ps| == 0 then [] else SectionOpening("Projects") + ProjectIntroLines(intro) + ProjectBody(ps)
  }

  // ----- The whole document -----

  /** The six optional sections in emission order: Languages, Experience,
      Education, Certifications, Skills, Projects. */
  function OptionalSections(cv: Cv): seq<string> {
    LanguagesSection(LanguageItems(cv))
    + ExperienceSection(ExperienceItems(cv))
    + EducationSection(EducationItems(cv))
    + CertificationsSection(CertificationItems(cv))
    + SkillsSection(SkillItems(cv))
    + ProjectsSection(ProjectIntro(cv), ProjectItems(cv))
  }

  /** The lines of the CV in emission order: header, Contact, then the
      optional sections. */
  function MarkdownLines(cv: Cv): (r: seq<string>)
    ensures |r| >= 7
    ensures r[0] == "# " + DisplayName(SidebarOf(cv))
  {
    var sb := SidebarOf(cv);
    HeaderLines(sb) + ContactLines(sb) + OptionalSections(cv)
  }

  /** `generate_markdown`: the lines joined with newlines. The text always
      opens with the title line and a newline. */
  function GenerateMarkdown(cv: Cv): (r: string)
    ensures StartsWith(r, "# " + DisplayName(SidebarOf(cv)) + [NewLine])
  {
    var lines := MarkdownLines(cv);
    var r := Join(lines);
    assert r == lines[0] + [NewLine] + Join(lines[1..]);
    assert r[..|lines[0]| + 1] == lines[0] + [NewLine];
    r
  }
}

=== FILE: outline.dfy ===
/** The heading structure of the generated Markdown: lines that begin with
    `## ` (the sections) and lines that begin with `### ` (the entries of a
    section). Other Markdown heading forms, such as setext underlines, are
    not recognised. The lemmas here prove that the sections present, and
    their order, are exactly the ones the input calls for. They also prove
    that every job, certification and project gets exactly one entry
    heading, in input order. Free text that the generator copies verbatim
    onto a line of its own (details, skill names, project intro and
    taglines) could itself begin like a heading, so these lemmas assume it
    does not. */
module Outline {
  import opened Wrappers
  import opened Strings
  import opened CvData
  import opened Markdown

  /** A line beginning `## `: a section heading. */
  predicate IsH2(line: string) {
    |line| >= 3 && line[0] == '#' && line[1] == '#' && line[2] == ' '
  }

  /** A line beginning `### `: an entry heading. */
  predicate IsH3(line: string) {
    |line| >= 4 && line[0] == '#' && line[1] == '#' && line[2] == '#' && line[3] == ' '
  }

  /** The section headings of a document, in document order. */
  function SectionHeadings(lines: seq<string>): (r: seq<string>)
    ensures |r| <= |lines|
  {
    if |lines| == 0 then []
    else (if IsH2(lines[0]) then [lines[0]] else []) + SectionHeadings(lines[1..])
  }

  /** The entry headings of a document, in document order. */
  function EntryHeadings(lines: seq<string>): (r: seq<string>)
    ensures |r| <= |lines|
  {
    if |lines| == 0 then []
    else (if IsH3(lines[0]) then [lines[0]] else []) + EntryHeadings(lines[1..])
  }

  lemma {:induction false} SectionHeadingsAppend(a: seq<string>, b: seq<string>)
    ensures SectionHeadings(a + b) == SectionHeadings(a) + SectionHeadings(b)
  {
    if |a| == 0 {
      assert a + b == b;
    } else {
      var ab := a + b;
      var h := if IsH2(a[0]) then [a[0]] else [];
      assert ab[0] == a[0];
      assert ab[1..] == a[1..] + b;
      assert SectionHeadings(ab) == h + SectionHeadings(a[1..] + b);
      SectionHeadingsAppend(a[1..], b);
      assert SectionHeadings(a) == h + SectionHeadings(a[1..]);
      assert h + (SectionHeadings(a[1..]) + SectionHeadings(b)) == (h + SectionHeadings(a[1..])) + SectionHeadings(b);
    }
  }

  lemma {:induction false} EntryHeadingsAppend(a: seq<string>, b: seq<string>)
    ensures EntryHeadings(a + b) == EntryHeadings(a) + EntryHeadings(b)
  {
    if |a| == 0 {
      assert a + b == b;
    } else {
      var ab := a + b;
      var h := if IsH3(a[0]) then [a[0]] else [];
      assert ab[0] == a[0];
      assert ab[1..] == a[1..] + b;
      assert EntryHeadings(ab) == h + EntryHeadings(a[1..] + b);
      EntryHeadingsAppend(a[1..], b);
      assert EntryHeadings(a) == h + EntryHeadings(a[1..]);
      assert h + (EntryHeadings(a[1..]) + EntryHeadings(b)) == (h + EntryHeadings(a[1..])) + EntryHeadings(b);
    }
  }

  lemma {:induction false} NoSectionHeadings(lines: seq<string>)
    requires forall l :: l in lines ==> !IsH2(l)
    ensures SectionHeadings(lines) == []
  {
    if |lines| > 0 {
      assert lines[0] in lines;
      assert forall l :: l in lines[1..] ==> l in lines;
      NoSectionHeadings(lines[1..]);
    }
  }

  lemma {:induction false} NoEntryHeadings(lines: seq<string>)
    requires forall l :: l in lines ==> !IsH3(l)
    ensures EntryHeadings(lines) == []
  {
    if |lines| > 0 {
      assert lines[0] in lines;
      assert forall l :: l in lines[1..] ==> l in lines;
      NoEntryHeadings(lines[1..]);
    }
  }

  // ----- Sections -----

  /** The sections of the document. */
  datatype Section = Contact | Languages | Experience | Education | Certifications | Skills | Projects {
    function Title(): string {
      match this
      case Contact => "Contact"
      case Languages => "Languages"
      case Experience => "Experience"
      case Education => "Education"
      case Certifications => "Certifications"
      case Skills => "Skills"
      case Projects => "Projects"
    }

    function Rank(): nat {
      match this
      case Contact => 0
      case Languages => 1
      case Experience => 2
      case Education => 3
      case Certifications => 4
      case Skills => 5
      case Projects => 6
    }
  }

  /** The number of sections. */
  const SectionCount := 7

  /** The section of each rank; the inverse of `Rank`. */
  function SectionOfRank(k: nat): (s: Section)
    requires k < SectionCount
    ensures s.Rank() == k
  {
    match k
    case 0 => Contact
    case 1 => Languages
    case 2 => Section.Experience
    case 3 => Section.Education
    case 4 => Certifications
    case 5 => Skills
    case _ => Projects
  }

  predicate RankOrdered(ss: seq<Section>) {
    forall i, j :: 0 <= i < j < |ss| ==> ss[i].Rank() < ss[j].Rank()
  }

  /** Whether the CV calls for a section: Contact always, every other
      section when its list is present and non-empty. */
  predicate CallsFor(cv: Cv, s: Section) {
    match s
    case Contact => true
    case Languages => |LanguageItems(cv)| > 0
    case Experience => |ExperienceItems(cv)| > 0
    case Education => |EducationItems(cv)| > 0
    case Certifications => |CertificationItems(cv)| > 0
    case Skills => |SkillItems(cv)| > 0
    case Projects => |ProjectItems(cv)| > 0
  }

  /** `[s]` when `present`, nothing otherwise. */
  function Optional(present: bool, s: Section): seq<Section> {
    if present then [s] else []
  }

  /** The sections of rank `k` and above that the CV calls for, by rank. */
  function PresentFrom(cv: Cv, k: nat): seq<Section>
    decreases SectionCount - k
  {
    if k >= SectionCount then []
    else Optional(CallsFor(cv, SectionOfRank(k)), SectionOfRank(k)) + PresentFrom(cv, k + 1)
  }

  /** The sections the CV calls for, in document order. */
  function PresentSections(cv: Cv): seq<Section> {
    PresentFrom(cv, 0)
  }

  /** `PresentFrom(cv, k)` holds exactly the called-for sections of rank at
      least `k`. */
  lemma {:induction false} PresentFromMembers(cv: Cv, k: nat)
    ensures forall s :: s in PresentFrom(cv, k) <==> k <= s.Rank() && CallsFor(cv, s)
    decreases SectionCount - k
  {
    if k < SectionCount {
      PresentFromMembers(cv, k + 1);
      var x := SectionOfRank(k);
      PresentFromStep(cv, k);
      forall s: Section
        ensures s in PresentFrom(cv, k) <==> k <= s.Rank() && CallsFor(cv, s)
      {
        if s.Rank() == k {
          assert s == x;
        }
      }
    } else {
      assert PresentFrom(cv, k) == [];
    }
  }

  /** Prepending a section of lower rank than all others keeps the order. */
  lemma OrderedCons(x: Section, rest: seq<Section>)
    requires RankOrdered(rest)
    requires forall s :: s in rest ==> x.Rank() < s.Rank()
    ensures RankOrdered([x] + rest)
  {
    forall i, j | 0 <= i < j < |[x] + rest|
      ensures ([x] + rest)[i].Rank() < ([x] + rest)[j].Rank()
    {
      assert ([x] + rest)[j] == rest[j - 1];
      if i > 0 {
        assert ([x] + rest)[i] == rest[i - 1];
      } else {
        assert rest[j - 1] in rest;
      }
    }
  }

  /** `PresentFrom(cv, k)` holds only sections of rank at least `k`. */
  lemma {:induction false} PresentFromRanks(cv: Cv, k: nat)
    ensures forall s :: s in PresentFrom(cv, k) ==> k <= s.Rank()
    decreases SectionCount - k
  {
    if k < SectionCount {
      var x := SectionOfRank(k);
      PresentFromStep(cv, k);
      PresentFromRanks(cv, k + 1);
      assert forall s :: s in Optional(CallsFor(cv, x), x) ==> s == x;
    } else {
      assert PresentFrom(cv, k) == [];
    }
  }

  /** `PresentFrom(cv, k)` is in strictly increasing rank. */
  lemma {:induction false} PresentFromOrdered(cv: Cv, k: nat)
    ensures RankOrdered(PresentFrom(cv, k))
    decreases SectionCount - k
  {
    if k < SectionCount {
      var x := SectionOfRank(k);
      var rest := PresentFrom(cv, k + 1);
      PresentFromStep(cv, k);
      PresentFromOrdered(cv, k + 1);
      PresentFromRanks(cv, k + 1);
      OptionalCons(CallsFor(cv, x), x, rest);
    } else {
      assert PresentFrom(cv, k) == [];
    }
  }

  /** Prepending an optional section of lower rank than all others keeps
      the order. */
  lemma OptionalCons(present: bool, x: Section, rest: seq<Section>)
    requires RankOrdered(rest)
    requires forall s :: s in rest ==> x.Rank() < s.Rank()
    ensures RankOrdered(Optional(present, x) + rest)
  {
    if present {
      OrderedCons(x, rest);
    } else {
      assert Optional(present, x) + rest == rest;
    }
  }

  /** `PresentSections` lists Contact first, then exactly the sections whose
      lists are present and non-empty, strictly in the fixed order. */
  lemma PresentSectionsSpec(cv: Cv)
    ensures var ps := PresentSections(cv);
      && |ps| > 0 && ps[0] == Contact
      && RankOrdered(ps)
      && (forall s :: s in ps <==> CallsFor(cv, s))
  {
    PresentFromMembers(cv, 0);
    PresentFromOrdered(cv, 0);
    PresentFromStep(cv, 0);
  }

  lemma PresentFromStep(cv: Cv, k: nat)
    requires k < SectionCount
    ensures PresentFrom(cv, k) == Optional(CallsFor(cv, SectionOfRank(k)), SectionOfRank(k)) + PresentFrom(cv, k + 1)
  {
  }

  /** `PresentSections` unfolded along the composer's order. */
  lemma PresentSectionsUnfold(cv: Cv)
    ensures PresentSections(cv) ==
      [Contact]
      + Optional(|LanguageItems(cv)| > 0, Languages)
      + Optional(|ExperienceItems(cv)| > 0, Section.Experience)
      + Optional(|EducationItems(cv)| > 0, Section.Education)
      + Optional(|CertificationItems(cv)| > 0, Certifications)
      + Optional(|SkillItems(cv)| > 0, Skills)
      + Optional(|ProjectItems(cv)| > 0, Projects)
  {
    var o1 := Optional(|LanguageItems(cv)| > 0, Languages);
    var o2 := Optional(|ExperienceItems(cv)| > 0, Section.Experience);
    var o3 := Optional(|EducationItems(cv)| > 0, Section.Education);
    var o4 := Optional(|CertificationItems(cv)| > 0, Certifications);
    var o5 := Optional(|SkillItems(cv)| > 0, Skills);
    var o6 := Optional(|ProjectItems(cv)| > 0, Projects);
    assert PresentFrom(cv, 6) == o6 by {
      PresentFromStep(cv, 6);
      assert o6 + [] == o6;
    }
    assert PresentFrom(cv, 5) == o5 + o6 by {
      PresentFromStep(cv, 5);
    }
    assert PresentFrom(cv, 4) == o4 + (o5 + o6) by {
      PresentFromStep(cv, 4);
    }
    assert PresentFrom(cv, 3) == o3 + (o4 + (o5 + o6)) by {
      PresentFromStep(cv, 3);
    }
    assert PresentFrom(cv, 2) == o2 + (o3 + (o4 + (o5 + o6))) by {
      PresentFromStep(cv, 2);
    }
    assert PresentFrom(cv, 1) == o1 + (o2 + (o3 + (o4 + (o5 + o6)))) by {
      PresentFromStep(cv, 1);
    }
    assert PresentFrom(cv, 0) == [Contact] + (o1 + (o2 + (o3 + (o4 + (o5 + o6))))) by {
      PresentFromStep(cv, 0);
    }
    Regroup([Contact], o1, o2, o3, o4, o5, o6);
  }

  lemma Regroup<T>(a: seq<T>, b: seq<T>, c: seq<T>, d: seq<T>, e: seq<T>, f: seq<T>, g: seq<T>)
    ensures a + b + c + d + e + f + g == a + (b + (c + (d + (e + (f + g)))))
  {
  }

  /** The section heading line of each section. */
  function HeadingLines(ss: seq<Section>): (r: seq<string>)
    ensures |r| == |ss|
    ensures forall i :: 0 <= i < |ss| ==> r[i] == SectionHeading(ss[i].Title())
  {
    if |ss| == 0 then [] else [SectionHeading(ss[0].Title())] + HeadingLines(ss[1..])
  }

  lemma SingleHeading(s: Section)
    ensures HeadingLines([s]) == [SectionHeading(s.Title())]
  {
    assert [s][1..] == [];
  }

  lemma HeadingLinesAppend(a: seq<Section>, b: seq<Section>)
    ensures HeadingLines(a + b) == HeadingLines(a) + HeadingLines(b)
  {
    var l, r := HeadingLines(a + b), HeadingLines(a) + HeadingLines(b);
    forall i | 0 <= i < |l|
      ensures l[i] == r[i]
    {
      if i < |a| {
        assert (a + b)[i] == a[i];
        assert r[i] == HeadingLines(a)[i];
      } else {
        assert (a + b)[i] == b[i - |a|];
        assert r[i] == HeadingLines(b)[i - |a|];
      }
    }
  }

  /** Free text that the generator copies onto a line of its own never
      looks like a section heading. */
  predicate VerbatimTextPlain(cv: Cv) {
    && (forall e :: e in ExperienceItems(cv) ==> !IsH2(Strip(Text(e.details))))
    && (forall c :: c in CertificationItems(cv) ==> !IsH2(Strip(Text(c.details))))
    && (forall s :: s in SkillItems(cv) && s.name.Some? ==> !IsH2(s.name.value))
    && (forall p :: p in ProjectItems(cv) ==> !IsH2(Text(p.tagline)))
    && (|ProjectItems(cv)| > 0 && ProjectIntro(cv).Some? ==> !IsH2(ProjectIntro(cv).value))
  }

  /** A line that is a section heading, with no section heading around it,
      is the only section heading. */
  lemma OneHeading(a: seq<string>, h: string, b: seq<string>)
    requires forall l :: l in a ==> !IsH2(l)
    requires IsH2(h)
    requires forall l :: l in b ==> !IsH2(l)
    ensures SectionHeadings(a + [h] + b) == [h]
  {
    NoSectionHeadings(a);
    NoSectionHeadings(b);
    assert SectionHeadings([h]) == [h] by {
      assert [h][1..] == [];
    }
    SectionHeadingsAppend(a, [h]);
    SectionHeadingsAppend(a + [h], b);
  }

  lemma OpeningHeadings(title: string)
    ensures SectionHeadings(SectionOpening(title)) == [SectionHeading(title)]
  {
    var h := SectionHeading(title);
    assert h[..3] == "## ";
    assert SectionOpening(title) == [Divider, ""] + [h] + [""];
    OneHeading([Divider, ""], h, [""]);
  }

  lemma OpeningEntries(title: string)
    ensures EntryHeadings(SectionOpening(title)) == []
  {
    var h := SectionHeading(title);
    assert h[2] == ' ';
    NoEntryHeadings(SectionOpening(title));
  }

  /** A section whose body holds no section heading contributes exactly its own heading. */
  lemma OpeningThenPlain(title: string, body: seq<string>)
    requires SectionHeadings(body) == []
    ensures SectionHeadings(SectionOpening(title) + body) == [SectionHeading(title)]
  {
    SectionHeadingsAppend(SectionOpening(title), body);
    OpeningHeadings(title);
  }

  /** The opening of a section holds no entry heading. */
  lemma OpeningThenEntries(title: string, body: seq<string>)
    ensures EntryHeadings(SectionOpening(title) + body) == EntryHeadings(body)
  {
    EntryHeadingsAppend(SectionOpening(title), body);
    OpeningEntries(title);
  }

  // ----- The lines of one entry -----

  /** A line the generator writes below an entry heading: blank, italic
      (opening with `*`), or the entry's free text. */
  predicate TailLine(l: string, free: string) {
    l == "" || l[0] == '*' || l == free
  }

  /** A block that opens with an entry heading and continues with tail
      lines has that heading as its only entry heading, and no section
      heading, unless its free text looks like one. */
  lemma EntryBlock(b: seq<string>, free: string)
    requires |b| > 0 && IsH3(b[0])
    requires forall i :: 1 <= i < |b| ==> TailLine(b[i], free)
    ensures !IsH3(free) ==> EntryHeadings(b) == [b[0]]
    ensures !IsH2(free) ==> SectionHeadings(b) == []
  {
    var t := b[1..];
    assert b == [b[0]] + t;
    assert [b[0]][1..] == [];
    forall l | l in t
      ensures TailLine(l, free)
    {
      var i :| 0 <= i < |t| && t[i] == l;
      assert l == b[i + 1];
    }
    if !IsH3(free) {
      NoEntryHeadings(t);
      EntryHeadingsAppend([b[0]], t);
    }
    if !IsH2(free) {
      NoSectionHeadings(t);
      SectionHeadingsAppend([b[0]], t);
    }
  }

  /** The shape of a job or certification block: heading, italic lines,
      blank, free-text lines, blank. */
  lemma EntryShape(h: string, italic: seq<string>, text: seq<string>, free: string)
    requires IsH3(h)
    requires forall l :: l in italic ==> |l| > 0 && l[0] == '*'
    requires forall l :: l in text ==> l == free
    ensures var b := [h] + italic + [""] + text + [""];
      && IsH3(b[0])
      && forall i :: 1 <= i < |b| ==> TailLine(b[i], free)
  {
    var b := [h] + italic + [""] + text + [""];
    forall i | 1 <= i < |b|
      ensures TailLine(b[i], free)
    {
      var k := |italic|;
      if i <= k {
        assert b[i] == italic[i - 1];
        assert b[i] in italic;
      } else if i == k + 1 || i == |b| - 1 {
        assert b[i] == "";
      } else {
        assert b[i] == text[i - k - 2];
        assert b[i] in text;
      }
    }
  }

  /** A job block is its heading followed by tail lines whose free text is
      the stripped details. */
  lemma ExperienceBlockLines(e: Experience)
    ensures var b := ExperienceBlock(e);
      && IsH3(b[0])
      && forall i :: 1 <= i < |b| ==> TailLine(b[i], Strip(Text(e.details)))
  {
    var time := Text(e.time);
    var details := Text(e.details);
    var h := ExperienceHeading(e);
    var italic := if time != "" then ["*" + time + "*"] else [];
    var text := if details != "" then [Strip(details)] else [];
    assert ExperienceBlock(e) == [h] + italic + [""] + text + [""];
    assert h[..4] == "### ";
    EntryShape(h, italic, text, Strip(details));
  }

  /** A certification block is its heading followed by tail lines whose
      free text is the stripped details. */
  lemma CertificationBlockLines(c: Certification)
    ensures var b := CertificationBlock(c);
      && IsH3(b[0])
      && forall i :: 1 <= i < |b| ==> TailLine(b[i], Strip(Text(c.details)))
  {
    var details := Text(c.details);
    var h := CertificationHeading(c);
    var italic := match CertificationIssuer(c) case Some(line) => [line] case None => [];
    var text := if details != "" then [Strip(details)] else [];
    assert CertificationBlock(c) == [h] + italic + [""] + text + [""];
    assert h[..4] == "### ";
    assert forall l :: l in italic ==> |l| > 0 && l[0] == '*';
    EntryShape(h, italic, text, Strip(details));
  }

  /** A project block is its heading followed by tail lines whose free text
      is the tagline. */
  lemma ProjectBlockLines(p: Project)
    ensures var b := ProjectBlock(p);
      && IsH3(b[0])
      && forall i :: 1 <= i < |b| ==> TailLine(b[i], Text(p.tagline))
  {
    var b := ProjectBlock(p);
    var h := ProjectHeading(p);
    assert h[..4] == "### ";
    assert h[3] == "### "[3];
  }

  lemma ExperienceBlockPlain(e: Experience)
    requires !IsH2(Strip(Text(e.details)))
    ensures SectionHeadings(ExperienceBlock(e)) == []
  {
    ExperienceBlockLines(e);
    EntryBlock(ExperienceBlock(e), Strip(Text(e.details)));
  }

  lemma CertificationBlockPlain(c: Certification)
    requires !IsH2(Strip(Text(c.details)))
    ensures SectionHeadings(CertificationBlock(c)) == []
  {
    CertificationBlockLines(c);
    EntryBlock(CertificationBlock(c), Strip(Text(c.details)));
  }

  lemma ProjectBlockPlain(p: Project)
    requires !IsH2(Text(p.tagline))
    ensures SectionHeadings(ProjectBlock(p)) == []
  {
    ProjectBlockLines(p);
    EntryBlock(ProjectBlock(p), Text(p.tagline));
  }

  // ----- Section headings, section by section -----

  lemma HeaderHeadings(sb: Sidebar)
    ensures SectionHeadings(HeaderLines(sb)) == []
  {
    var name := "# " + DisplayName(sb);
    assert name[1] == ' ';
    forall l | l in HeaderLines(sb)
      ensures !IsH2(l)
    {
    }
    NoSectionHeadings(HeaderLines(sb));
  }

  /** A contact bullet starts with a dash, so it is no heading. */
  lemma ContactBulletPlain(field: string, o: Option<string>)
    ensures forall l :: l in ContactBullet(field, o) ==> !IsH2(l)
  {
    if o.Some? {
      var l := "- " + field + ": " + o.value;
      assert l[0] == '-';
    }
  }

  lemma ContactHeadings(sb: Sidebar)
    ensures SectionHeadings(ContactLines(sb)) == [SectionHeading("Contact")]
  {
    var h := SectionHeading("Contact");
    var bullets := ContactBullets(sb);
    ContactBulletPlain("Email", sb.email);
    ContactBulletPlain("Phone", sb.phone);
    ContactBulletPlain("Website", sb.website);
    ContactBulletPlain("LinkedIn", sb.linkedin);
    ContactBulletPlain("GitHub", sb.github);
    assert forall l :: l in bullets ==> !IsH2(l);
    var rest := [""] + bullets + [""];
    assert forall l :: l in rest ==> l == "" || l in bullets;
    assert h[..3] == "## ";
    assert ContactLines(sb) == [] + [h] + rest;
    OneHeading([], h, rest);
  }


  /** A list section whose lines hold no section heading contributes
      exactly its own heading. */
  lemma ListSectionHeadings(title: string, lines: seq<string>)
    requires forall l :: l in lines ==> !IsH2(l)
    ensures SectionHeadings(ListSection(title, lines)) == [SectionHeading(title)]
  {
    NoSectionHeadings(lines + [""]);
    assert ListSection(title, lines) == SectionOpening(title) + (lines + [""]);
    OpeningThenPlain(title, lines + [""]);
  }

  lemma LanguagesHeadings(items: seq<Language>)
    ensures SectionHeadings(LanguagesSection(items)) == HeadingLines(Optional(|items| > 0, Languages))
  {
    if |items| > 0 {
      var lines := seq(|items|, i requires 0 <= i < |items| => LanguageBullet(items[i]));
      forall l | l in lines
        ensures !IsH2(l)
      {
        var k :| 0 <= k < |lines| && lines[k] == l;
        assert l[0] == '-';
      }
      ListSectionHeadings("Languages", lines);
      SingleHeading(Languages);
    }
  }

  lemma EducationHeadings(es: seq<Education>)
    ensures SectionHeadings(EducationSection(es)) == HeadingLines(Optional(|es| > 0, Section.Education))
  {
    if |es| > 0 {
      var lines := seq(|es|, i requires 0 <= i < |es| => EducationBullet(es[i]));
      forall l | l in lines
        ensures !IsH2(l)
      {
        var k :| 0 <= k < |lines| && lines[k] == l;
        EducationBulletForm(es[k]);
        assert l[0] == EducationStem(es[k])[0] == '-';
      }
      ListSectionHeadings("Education", lines);
      SingleHeading(Section.Education);
    }
  }

  lemma {:induction false} ExperienceBodyHeadings(es: seq<Experience>)
    requires forall e :: e in es ==> !IsH2(Strip(Text(e.details)))
    ensures SectionHeadings(ExperienceBody(es)) == []
  {
    if |es| > 0 {
      assert es[0] in es;
      ExperienceBlockPlain(es[0]);
      assert forall x :: x in es[1..] ==> x in es;
      ExperienceBodyHeadings(es[1..]);
      SectionHeadingsAppend(ExperienceBlock(es[0]), ExperienceBody(es[1..]));
    }
  }

  lemma {:induction false} CertificationBodyHeadings(cs: seq<Certification>)
    requires forall c :: c in cs ==> !IsH2(Strip(Text(c.details)))
    ensures SectionHeadings(CertificationBody(cs)) == []
  {
    if |cs| > 0 {
      assert cs[0] in cs;
      CertificationBlockPlain(cs[0]);
      assert forall x :: x in cs[1..] ==> x in cs;
      CertificationBodyHeadings(cs[1..]);
      SectionHeadingsAppend(CertificationBlock(cs[0]), CertificationBody(cs[1..]));
    }
  }

  lemma {:induction false} ProjectBodyHeadings(ps: seq<Project>)
    requires forall p :: p in ps ==> !IsH2(Text(p.tagline))
    ensures SectionHeadings(ProjectBody(ps)) == []
  {
    if |ps| > 0 {
      assert ps[0] in ps;
      ProjectBlockPlain(ps[0]);
      assert forall x :: x in ps[1..] ==> x in ps;
      ProjectBodyHeadings(ps[1..]);
      SectionHeadingsAppend(ProjectBlock(ps[0]), ProjectBody(ps[1..]));
    }
  }

  lemma ExperienceHeadings(es: seq<Experience>)
    requires forall e :: e in es ==> !IsH2(Strip(Text(e.details)))
    ensures SectionHeadings(ExperienceSection(es)) == HeadingLines(Optional(|es| > 0, Section.Experience))
  {
    if |es| > 0 {
      ExperienceBodyHeadings(es);
      OpeningThenPlain("Experience", ExperienceBody(es));
      SingleHeading(Section.Experience);
    }
  }

  lemma CertificationsHeadings(cs: seq<Certification>)
    requires forall c :: c in cs ==> !IsH2(Strip(Text(c.details)))
    ensures SectionHeadings(CertificationsSection(cs)) == HeadingLines(Optional(|cs| > 0, Certifications))
  {
    if |cs| > 0 {
      CertificationBodyHeadings(cs);
      OpeningThenPlain("Certifications", CertificationBody(cs));
      SingleHeading(Certifications);
    }
  }

  lemma SkillsHeadings(t: seq<Skill>)
    requires forall s :: s in t && s.name.Some? ==> !IsH2(s.name.value)
    ensures SectionHeadings(SkillsSection(t)) == HeadingLines(Optional(|t| > 0, Skills))
  {
    if |t| > 0 {
      var names := SkillNames(t);
      SkillNamesMembers(t);
      forall l | l in names
        ensures !IsH2(l)
      {
        var j :| 0 <= j < |names| && names[j] == l;
        var i :| 0 <= i < |t| && t[i].name == Some(names[j]);
        assert t[i] in t;
      }
      ListSectionHeadings("Skills", names);
      SingleHeading(Skills);
    }
  }

  /** The lines after the Projects opening hold no section heading. */
  lemma ProjectLinesPlain(intro: Option<string>, ps: seq<Project>)
    requires forall p :: p in ps ==> !IsH2(Text(p.tagline))
    requires intro.Some? ==> !IsH2(intro.value)
    ensures SectionHeadings(ProjectIntroLines(intro) + ProjectBody(ps)) == []
  {
    var introLines := ProjectIntroLines(intro);
    assert SectionHeadings(introLines) == [] by {
      assert forall l :: l in introLines ==> l == "" || (intro.Some? && l == intro.value);
      NoSectionHeadings(introLines);
    }
    ProjectBodyHeadings(ps);
    SectionHeadingsAppend(introLines, ProjectBody(ps));
  }

  lemma ProjectsSectionParts(intro: Option<string>, ps: seq<Project>)
    requires |ps| > 0
    ensures ProjectsSection(intro, ps) == SectionOpening("Projects") + (ProjectIntroLines(intro) + ProjectBody(ps))
  {
  }

  lemma ProjectsHeadings(intro: Option<string>, ps: seq<Project>)
    requires forall p :: p in ps ==> !IsH2(Text(p.tagline))
    requires |ps| > 0 && intro.Some? ==> !IsH2(intro.value)
    ensures SectionHeadings(ProjectsSection(intro, ps)) == HeadingLines(Optional(|ps| > 0, Projects))
  {
    if |ps| > 0 {
      var rest := ProjectIntroLines(intro) + ProjectBody(ps);
      ProjectLinesPlain(intro, ps);
      ProjectsSectionParts(intro, ps);
      OpeningThenPlain("Projects", rest);
      SingleHeading(Projects);
    }
  }

  /** The section headings of the six optional sections, section by
      section, for any lists. */
  lemma SectionsOutline(ls: seq<Language>, xs: seq<Experience>, ds: seq<Education>,
                        cs: seq<Certification>, t: seq<Skill>, intro: Option<string>, ps: seq<Project>)
    requires forall e :: e in xs ==> !IsH2(Strip(Text(e.details)))
    requires forall c :: c in cs ==> !IsH2(Strip(Text(c.details)))
    requires forall s :: s in t && s.name.Some? ==> !IsH2(s.name.value)
    requires forall p :: p in ps ==> !IsH2(Text(p.tagline))
    requires |ps| > 0 && intro.Some? ==> !IsH2(intro.value)
    ensures SectionHeadings(LanguagesSection(ls) + ExperienceSection(xs) + EducationSection(ds)
        + CertificationsSection(cs) + SkillsSection(t) + ProjectsSection(intro, ps)) ==
      HeadingLines(Optional(|ls| > 0, Languages))
      + HeadingLines(Optional(|xs| > 0, Section.Experience))
      + HeadingLines(Optional(|ds| > 0, Section.Education))
      + HeadingLines(Optional(|cs| > 0, Certifications))
      + HeadingLines(Optional(|t| > 0, Skills))
      + HeadingLines(Optional(|ps| > 0, Projects))
  {
    LanguagesHeadings(ls);
    ExperienceHeadings(xs);
    EducationHeadings(ds);
    CertificationsHeadings(cs);
    SkillsHeadings(t);
    ProjectsHeadings(intro, ps);
    SixHeadings(
      LanguagesSection(ls), ExperienceSection(xs), EducationSection(ds),
      CertificationsSection(cs), SkillsSection(t), ProjectsSection(intro, ps),
      HeadingLines(Optional(|ls| > 0, Languages)),
      HeadingLines(Optional(|xs| > 0, Section.Experience)),
      HeadingLines(Optional(|ds| > 0, Section.Education)),
      HeadingLines(Optional(|cs| > 0, Certifications)),
      HeadingLines(Optional(|t| > 0, Skills)),
      HeadingLines(Optional(|ps| > 0, Projects)));
  }

  /** The section headings of the optional sections of a CV, section by section. */
  lemma OptionalSectionsOutline(cv: Cv)
    requires VerbatimTextPlain(cv)
    ensures SectionHeadings(OptionalSections(cv)) ==
      HeadingLines(Optional(|LanguageItems(cv)| > 0, Languages))
      + HeadingLines(Optional(|ExperienceItems(cv)| > 0, Section.Experience))
      + HeadingLines(Optional(|EducationItems(cv)| > 0, Section.Education))
      + HeadingLines(Optional(|CertificationItems(cv)| > 0, Certifications))
      + HeadingLines(Optional(|SkillItems(cv)| > 0, Skills))
      + HeadingLines(Optional(|ProjectItems(cv)| > 0, Projects))
  {
    OptionalSectionsParts(cv);
    SectionsOutline(LanguageItems(cv), ExperienceItems(cv), EducationItems(cv),
      CertificationItems(cv), SkillItems(cv), ProjectIntro(cv), ProjectItems(cv));
  }


  lemma OptionalSectionsParts(cv: Cv)
    ensures OptionalSections(cv) ==
      LanguagesSection(LanguageItems(cv))
      + ExperienceSection(ExperienceItems(cv))
      + EducationSection(EducationItems(cv))
      + CertificationsSection(CertificationItems(cv))
      + SkillsSection(SkillItems(cv))
      + ProjectsSection(ProjectIntro(cv), ProjectItems(cv))
  {
  }

  /** Six consecutive parts with known section headings. */
  lemma SixHeadings(a: seq<string>, b: seq<string>, c: seq<string>, d: seq<string>, e: seq<string>, f: seq<string>,
                    ha: seq<string>, hb: seq<string>, hc: seq<string>, hd: seq<string>, he: seq<string>, hf: seq<string>)
    requires SectionHeadings(a) == ha && SectionHeadings(b) == hb && SectionHeadings(c) == hc
    requires SectionHeadings(d) == hd && SectionHeadings(e) == he && SectionHeadings(f) == hf
    ensures SectionHeadings(a + b + c + d + e + f) == ha + hb + hc + hd + he + hf
  {
    SixParts(a, b, c, d, e, f);
  }

  /** The section headings of six consecutive parts, part by part. */
  lemma SixParts(a: seq<string>, b: seq<string>, c: seq<string>, d: seq<string>, e: seq<string>, f: seq<string>)
    ensures SectionHeadings(a + b + c + d + e + f) ==
      SectionHeadings(a) + SectionHeadings(b) + SectionHeadings(c)
      + SectionHeadings(d) + SectionHeadings(e) + SectionHeadings(f)
  {
    SectionHeadingsAppend(a, b);
    SectionHeadingsAppend(a + b, c);
    SectionHeadingsAppend(a + b + c, d);
    SectionHeadingsAppend(a + b + c + d, e);
    SectionHeadingsAppend(a + b + c + d + e, f);
  }

  /** The header and the Contact block hold exactly the Contact heading. */
  lemma FrontOutline(sb: Sidebar)
    ensures SectionHeadings(HeaderLines(sb) + ContactLines(sb)) == HeadingLines([Contact])
  {
    HeaderHeadings(sb);
    ContactHeadings(sb);
    SingleHeading(Contact);
    SectionHeadingsAppend(HeaderLines(sb), ContactLines(sb));
  }

  lemma LinesOutline(cv: Cv)
    requires VerbatimTextPlain(cv)
    ensures SectionHeadings(MarkdownLines(cv)) ==
      HeadingLines([Contact])
      + HeadingLines(Optional(|LanguageItems(cv)| > 0, Languages))
      + HeadingLines(Optional(|ExperienceItems(cv)| > 0, Section.Experience))
      + HeadingLines(Optional(|EducationItems(cv)| > 0, Section.Education))
      + HeadingLines(Optional(|CertificationItems(cv)| > 0, Certifications))
      + HeadingLines(Optional(|SkillItems(cv)| > 0, Skills))
      + HeadingLines(Optional(|ProjectItems(cv)| > 0, Projects))
  {
    var sb := SidebarOf(cv);
    var front := HeaderLines(sb) + ContactLines(sb);
    FrontOutline(sb);
    OptionalSectionsOutline(cv);
    SectionHeadingsAppend(front, OptionalSections(cv));
    assert MarkdownLines(cv) == front + OptionalSections(cv);
    PrependLeft(HeadingLines([Contact]),
      HeadingLines(Optional(|LanguageItems(cv)| > 0, Languages)),
      HeadingLines(Optional(|ExperienceItems(cv)| > 0, Section.Experience)),
      HeadingLines(Optional(|EducationItems(cv)| > 0, Section.Education)),
      HeadingLines(Optional(|CertificationItems(cv)| > 0, Certifications)),
      HeadingLines(Optional(|SkillItems(cv)| > 0, Skills)),
      HeadingLines(Optional(|ProjectItems(cv)| > 0, Projects)));
  }

  lemma PrependLeft<T>(a: seq<T>, b: seq<T>, c: seq<T>, d: seq<T>, e: seq<T>, f: seq<T>, g: seq<T>)
    ensures a + (b + c + d + e + f + g) == a + b + c + d + e + f + g
  {
  }

  /** The section outline of the generated document: its section headings
      are `## Contact` followed by the heading of each section the CV calls
      for, each exactly once, in the fixed order; a section whose list is
      absent or empty leaves no heading. */
  lemma SectionOutline(cv: Cv)
    requires VerbatimTextPlain(cv)
    ensures SectionHeadings(MarkdownLines(cv)) == HeadingLines(PresentSections(cv))
  {
    LinesOutline(cv);
    PresentSectionsUnfold(cv);
    var o1 := Optional(|LanguageItems(cv)| > 0, Languages);
    var o2 := Optional(|ExperienceItems(cv)| > 0, Section.Experience);
    var o3 := Optional(|EducationItems(cv)| > 0, Section.Education);
    var o4 := Optional(|CertificationItems(cv)| > 0, Certifications);
    var o5 := Optional(|SkillItems(cv)| > 0, Skills);
    var o6 := Optional(|ProjectItems(cv)| > 0, Projects);
    HeadingLinesAppend([Contact], o1);
    HeadingLinesAppend([Contact] + o1, o2);
    HeadingLinesAppend([Contact] + o1 + o2, o3);
    HeadingLinesAppend([Contact] + o1 + o2 + o3, o4);
    HeadingLinesAppend([Contact] + o1 + o2 + o3 + o4, o5);
    HeadingLinesAppend([Contact] + o1 + o2 + o3 + o4 + o5, o6);
  }

  /** The same outline read off the generated text: splitting the text at
      its newlines gives the composed lines back when no composed line holds
      a newline, so the text's section headings are those of the
      called-for sections, in the fixed order. */
  lemma GeneratedOutline(cv: Cv)
    requires VerbatimTextPlain(cv)
    requires SingleLines(MarkdownLines(cv))
    ensures SectionHeadings(Split(GenerateMarkdown(cv))) == HeadingLines(PresentSections(cv))
  {
    SplitJoin(MarkdownLines(cv));
    SectionOutline(cv);
  }

  /** A CV whose optional lists are all absent or empty yields only the
      header and the Contact block, whose heading is its only section heading. */
  lemma OnlyContactWhenNoSections(cv: Cv)
    requires |LanguageItems(cv)| == 0 && |ExperienceItems(cv)| == 0
    requires |EducationItems(cv)| == 0 && |CertificationItems(cv)| == 0
    requires |SkillItems(cv)| == 0 && |ProjectItems(cv)| == 0
    ensures MarkdownLines(cv) == HeaderLines(SidebarOf(cv)) + ContactLines(SidebarOf(cv))
    ensures SectionHeadings(MarkdownLines(cv)) == [SectionHeading("Contact")]
  {
    SectionOutline(cv);
    PresentSectionsUnfold(cv);
    assert [Contact][1..] == [];
  }

  // ----- Entry headings -----

  /** The heading of every element, in order. */
  function HeadingsOf<T>(xs: seq<T>, heading: T -> string): (r: seq<string>)
    ensures |r| == |xs|
    ensures forall i :: 0 <= i < |xs| ==> r[i] == heading(xs[i])
  {
    if |xs| == 0 then []
    else
      assert forall i :: 1 <= i < |xs| ==> xs[1..][i - 1] == xs[i];
      [heading(xs[0])] + HeadingsOf(xs[1..], heading)
  }

  /** A block with a single entry heading puts it in front of the entry
      headings that follow. */
  lemma EntriesCons(block: seq<string>, rest: seq<string>, h: string)
    requires EntryHeadings(block) == [h]
    ensures EntryHeadings(block + rest) == [h] + EntryHeadings(rest)
  {
    EntryHeadingsAppend(block, rest);
  }

  lemma ExperienceBlockEntries(e: Experience)
    requires !IsH3(Strip(Text(e.details)))
    ensures EntryHeadings(ExperienceBlock(e)) == [ExperienceHeading(e)]
  {
    ExperienceBlockLines(e);
    EntryBlock(ExperienceBlock(e), Strip(Text(e.details)));
  }

  lemma CertificationBlockEntries(c: Certification)
    requires !IsH3(Strip(Text(c.details)))
    ensures EntryHeadings(CertificationBlock(c)) == [CertificationHeading(c)]
  {
    CertificationBlockLines(c);
    EntryBlock(CertificationBlock(c), Strip(Text(c.details)));
  }

  lemma ProjectBlockEntries(p: Project)
    requires !IsH3(Text(p.tagline))
    ensures EntryHeadings(ProjectBlock(p)) == [ProjectHeading(p)]
  {
    ProjectBlockLines(p);
    EntryBlock(ProjectBlock(p), Text(p.tagline));
  }

  lemma ExperienceBodyStep(es: seq<Experience>)
    requires |es| > 0
    ensures ExperienceBody(es) == ExperienceBlock(es[0]) + ExperienceBody(es[1..])
  {
  }

  lemma {:induction false} ExperienceBodyEntries(es: seq<Experience>)
    requires forall e :: e in es ==> !IsH3(Strip(Text(e.details)))
    ensures EntryHeadings(ExperienceBody(es)) == HeadingsOf(es, ExperienceHeading)
  {
    if |es| > 0 {
      var h := ExperienceHeading(es[0]);
      ExperienceBodyStep(es);
      assert es[0] in es;
      ExperienceBlockEntries(es[0]);
      assert forall x :: x in es[1..] ==> x in es;
      ExperienceBodyEntries(es[1..]);
      EntriesCons(ExperienceBlock(es[0]), ExperienceBody(es[1..]), h);
      assert HeadingsOf(es, ExperienceHeading) == [h] + HeadingsOf(es[1..], ExperienceHeading);
    } else {
      assert ExperienceBody(es) == [];
    }
  }

  /** Every job gets exactly one entry heading `### role | company`, in input order. */
  lemma ExperienceEntries(es: seq<Experience>)
    requires forall e :: e in es ==> !IsH3(Strip(Text(e.details)))
    ensures var hs := EntryHeadings(ExperienceSection(es));
      |hs| == |es| && forall i :: 0 <= i < |es| ==> hs[i] == ExperienceHeading(es[i])
  {
    if |es| > 0 {
      ExperienceBodyEntries(es);
      OpeningThenEntries("Experience", ExperienceBody(es));
    }
  }

  lemma CertificationBodyStep(cs: seq<Certification>)
    requires |cs| > 0
    ensures CertificationBody(cs) == CertificationBlock(cs[0]) + CertificationBody(cs[1..])
  {
  }

  lemma {:induction false} CertificationBodyEntries(cs: seq<Certification>)
    requires forall c :: c in cs ==> !IsH3(Strip(Text(c.details)))
    ensures EntryHeadings(CertificationBody(cs)) == HeadingsOf(cs, CertificationHeading)
  {
    if |cs| > 0 {
      var h := CertificationHeading(cs[0]);
      CertificationBodyStep(cs);
      assert cs[0] in cs;
      CertificationBlockEntries(cs[0]);
      assert forall x :: x in cs[1..] ==> x in cs;
      CertificationBodyEntries(cs[1..]);
      EntriesCons(CertificationBlock(cs[0]), CertificationBody(cs[1..]), h);
      assert HeadingsOf(cs, CertificationHeading) == [h] + HeadingsOf(cs[1..], CertificationHeading);
    } else {
      assert CertificationBody(cs) == [];
    }
  }

  /** Every certification gets exactly one entry heading `### name`, in input order. */
  lemma CertificationEntries(cs: seq<Certification>)
    requires forall c :: c in cs ==> !IsH3(Strip(Text(c.details)))
    ensures var hs := EntryHeadings(CertificationsSection(cs));
      |hs| == |cs| && forall i :: 0 <= i < |cs| ==> hs[i] == CertificationHeading(cs[i])
  {
    if |cs| > 0 {
      CertificationBodyEntries(cs);
      OpeningThenEntries("Certifications", CertificationBody(cs));
    }
  }

  lemma ProjectBodyStep(ps: seq<Project>)
    requires |ps| > 0
    ensures ProjectBody(ps) == ProjectBlock(ps[0]) + ProjectBody(ps[1..])
  {
  }

  lemma {:induction false} ProjectBodyEntries(ps: seq<Project>)
    requires forall p :: p in ps ==> !IsH3(Text(p.tagline))
    ensures EntryHeadings(ProjectBody(ps)) == HeadingsOf(ps, ProjectHeading)
  {
    if |ps| > 0 {
      var h := ProjectHeading(ps[0]);
      ProjectBodyStep(ps);
      assert ps[0] in ps;
      ProjectBlockEntries(ps[0]);
      assert forall x :: x in ps[1..] ==> x in ps;
      ProjectBodyEntries(ps[1..]);
      EntriesCons(ProjectBlock(ps[0]), ProjectBody(ps[1..]), h);
      assert HeadingsOf(ps, ProjectHeading) == [h] + HeadingsOf(ps[1..], ProjectHeading);
    } else {
      assert ProjectBody(ps) == [];
    }
  }

  /** The intro lines of the Projects section hold no entry heading. */
  lemma ProjectIntroEntries(intro: Option<string>)
    requires intro.Some? ==> !IsH3(intro.value)
    ensures EntryHeadings(ProjectIntroLines(intro)) == []
  {
    var introLines := ProjectIntroLines(intro);
    assert forall l :: l in introLines ==> l == "" || (intro.Some? && l == intro.value);
    NoEntryHeadings(introLines);
  }

  lemma ProjectsSectionEntries(intro: Option<string>, ps: seq<Project>)
    requires |ps| > 0
    requires forall p :: p in ps ==> !IsH3(Text(p.tagline))
    requires intro.Some? ==> !IsH3(intro.value)
    ensures EntryHeadings(ProjectsSection(intro, ps)) == HeadingsOf(ps, ProjectHeading)
  {
    var introLines := ProjectIntroLines(intro);
    ProjectIntroEntries(intro);
    ProjectBodyEntries(ps);
    EntryHeadingsAppend(introLines, ProjectBody(ps));
    ProjectsSectionParts(intro, ps);
    OpeningThenEntries("Projects", introLines + ProjectBody(ps));
  }

  /** Every project gets exactly one entry heading, in input order, after
      the intro line. */
  lemma ProjectEntries(intro: Option<string>, ps: seq<Project>)
    requires forall p :: p in ps ==> !IsH3(Text(p.tagline))
    requires |ps| > 0 && intro.Some? ==> !IsH3(intro.value)
    ensures var hs := EntryHeadings(ProjectsSection(intro, ps));
      |hs| == |ps| && forall i :: 0 <= i < |ps| ==> hs[i] == ProjectHeading(ps[i])
  {
    if |ps| > 0 {
      ProjectsSectionEntries(intro, ps);
    }
  }
}

=== FILE: strings.dfy ===
/** String helpers the generator borrows from Ruby: `String#strip` on the
    free-text details and `Array#join("\n")` on the finished list of lines,
    together with a line splitter that undoes the join. */
module Strings {

  /** The characters Ruby's `String#strip` removes: NUL, horizontal tab,
      line feed, vertical tab (11), form feed (12), carriage return, space. */
  predicate IsSpace(c: char) {
    c == '\0' || c == '\t' || c == '\n' || c == '\r' || c == ' '
    || c as int == 11 || c as int == 12
  }

  /** Number of whitespace characters at the front of `s`. */
  function LeadingSpaces(s: string): (n: nat)
    ensures n <= |s|
    ensures forall k :: 0 <= k < n ==> IsSpace(s[k])
    ensures n < |s| ==> !IsSpace(s[n])
  {
    if |s| == 0 || !IsSpace(s[0]) then 0 else 1 + LeadingSpaces(s[1..])
  }

  /** Number of whitespace characters at the back of `s`. */
  function TrailingSpaces(s: string): (n: nat)
    ensures n <= |s|
    ensures forall k :: |s| - n <= k < |s| ==> IsSpace(s[k])
    ensures n < |s| ==> !IsSpace(s[|s| - n - 1])
  {
    if |s| == 0 || !IsSpace(s[|s| - 1]) then 0 else 1 + TrailingSpaces(s[..|s| - 1])
  }

  /** Ruby's `String#strip`: the longest infix of `s` that neither starts nor
      ends with whitespace, obtained by removing only whitespace. */
  function Strip(s: string): (r: string)
    ensures |r| <= |s|
    ensures r == [] <==> forall k :: 0 <= k < |s| ==> IsSpace(s[k])
    ensures r != [] ==> !IsSpace(r[0]) && !IsSpace(r[|r| - 1])
    ensures var i := LeadingSpaces(s);
      && i + |r| <= |s|
      && r == s[i..i + |r|]
      && forall k :: i + |r| <= k < |s| ==> IsSpace(s[k])
  {
    var i := LeadingSpaces(s);
    if i == |s| then
      assert s[i..i] == [];
      []
    else
      var j := |s| - TrailingSpaces(s);
      assert i < j;
      var r := s[i..j];
      assert r == s[i..i + |r|];
      r
  }

  /** Stripping a stripped string changes nothing. */
  lemma StripIdempotent(s: string)
    ensures Strip(Strip(s)) == Strip(s)
  {
    var r := Strip(s);
    if r != [] {
      assert LeadingSpaces(r) == 0;
      assert TrailingSpaces(r) == 0;
      assert r[0..|r|] == r;
    }
  }

  /** `Strip` removes exactly the surrounding whitespace: padding a text
      that neither starts nor ends with whitespace by whitespace on both
      sides and stripping gives the text back. */
  lemma StripPadded(front: string, body: string, back: string)
    requires forall k :: 0 <= k < |front| ==> IsSpace(front[k])
    requires forall k :: 0 <= k < |back| ==> IsSpace(back[k])
    requires body != [] && !IsSpace(body[0]) && !IsSpace(body[|body| - 1])
    ensures Strip(front + body + back) == body
  {
    var s := front + body + back;
    var i := LeadingSpaces(s);
    assert s[|front|] == body[0];
    assert i == |front|;
    var r := Strip(s);
    assert r != [] by {
      assert !IsSpace(s[|front|]);
    }
    var e := |front| + |body| - 1;
    assert s[e] == body[|body| - 1];
    assert r[|r| - 1] == s[i + |r| - 1];
    assert |r| == |body|;
    assert s[i..i + |r|] == body;
  }

  /** True when `s` begins with `prefix`. */
  predicate StartsWith(s: string, prefix: string) {
    |prefix| <= |s| && s[..|prefix|] == prefix
  }

  /** The line separator used by the generator. */
  const NewLine: char := '\n'

  /** Ruby's `Array#join("\n")`: the lines with one separator between
      neighbours and none at either end. */
  function Join(lines: seq<string>): (r: string)
    ensures |lines| == 0 ==> r == []
    ensures |lines| > 0 ==> |r| == TotalLength(lines) + |lines| - 1
    ensures |lines| > 0 ==> r[..|lines[0]|] == lines[0]
  {
    if |lines| == 0 then []
    else if |lines| == 1 then lines[0]
    else lines[0] + [NewLine] + Join(lines[1..])
  }

  /** Sum of the lengths of all lines. */
  function TotalLength(lines: seq<string>): nat {
    if |lines| == 0 then 0 else |lines[0]| + TotalLength(lines[1..])
  }

  /** Splits `s` at every newline; the inverse of `Join` on lines that hold
      no newline themselves. Always yields at least one (possibly empty) line. */
  function Split(s: string): (r: seq<string>)
    ensures |r| >= 1
    ensures |r| - 1 == |s| - TotalLength(r)
  {
    if |s| == 0 then [[]]
    else if s[0] == NewLine then [[]] + Split(s[1..])
    else
      var rest := Split(s[1..]);
      [[s[0]] + rest[0]] + rest[1..]
  }

  /** True when no line contains a newline character. */
  predicate SingleLines(lines: seq<string>) {
    forall i :: 0 <= i < |lines| ==> NewLine !in lines[i]
  }

  /** Splitting a text that starts with a newline-free `a` glues `a` to the
      first line of the rest. */
  lemma {:induction false} SplitPrefix(a: string, t: string)
    requires NewLine !in a
    ensures Split(a + t) == [a + Split(t)[0]] + Split(t)[1..]
    decreases |a|
  {
    if |a| == 0 {
      assert a + t == t;
      assert a + Split(t)[0] == Split(t)[0];
      assert Split(t) == [Split(t)[0]] + Split(t)[1..];
    } else {
      assert (a + t)[0] == a[0];
      assert (a + t)[1..] == a[1..] + t;
      SplitPrefix(a[1..], t);
      assert [a[0]] + (a[1..] + Split(t)[0]) == a + Split(t)[0];
    }
  }

  /** Join and Split are inverse on non-empty lists of single lines. */
  lemma {:induction false} SplitJoin(lines: seq<string>)
    requires |lines| > 0
    requires SingleLines(lines)
    ensures Split(Join(lines)) == lines
  {
    if |lines| == 1 {
      SplitPrefix(lines[0], []);
      assert lines[0] + [] == lines[0];
    } else {
      var rest := Join(lines[1..]);
      SplitJoin(lines[1..]);
      SplitPrefix(lines[0], [NewLine] + rest);
      assert ([NewLine] + rest)[1..] == rest;
      assert Split([NewLine] + rest) == [[]] + Split(rest);
      assert lines[0] + [NewLine] + rest == lines[0] + ([NewLine] + rest);
      assert lines[0] + [] == lines[0];
      assert lines == [lines[0]] + lines[1..];
    }
  }
}

=== FILE: wrappers.dfy ===
/** The optional-value type used for every YAML key the generator may find
    missing: `None` stands for a key that is absent (Ruby `nil`), `Some(v)`
    for a key that is present, even when `v` is empty. */
module Wrappers {

  datatype Option<+T> = None | Some(value: T) {

    /** The encapsulated value, or `default` when there is none; this is
        Ruby's `x || default` for a value that can only be nil or a string. */
    function GetOr(default: T): T {
      match this
      case Some(v) => v
      case None => default
    }
  }
}
